=== FILE: README.md ===
# Pub/Sub topic administration service — a Dafny model

The service is a small Flask API. It lets a caller create, inspect, list,
update and delete Google Cloud Pub/Sub topics, and add or change a topic's
subscriptions. Two layers hold its decision logic:

- `PubSubCreatorService` (services/pubsub_creator.py) wraps the Pub/Sub
  client. Every method returns an envelope, either `{"status": "success", ...}`
  or `{"status": "error", "message": ...}`, instead of raising. The exceptions
  are create and delete on an uninitialised client: they raise, because they
  build the topic path before their `try`.
- The controller (controllers/msg_broker_controller.py) validates the JSON
  payload, calls the service, reformats the list and get results (short names,
  `"<n> seconds"`) and picks the HTTP status code.

The model is purely functional. Every operation is a function from its inputs
and the backend state before the call to a reply and the backend state after
it.

| file | module | what it holds |
|---|---|---|
| wrappers.dfy | `Wrappers` | `Option` and `Result`, the latter usable with `:-` |
| text.dfy | `Text` | decimal digits and numerals, `str.lower()`, Python's substring `in`, `split("/")[-1]` |
| json.dfy | `JsonValue` | JSON values as Flask hands them over (`JNull` is Python's `None`), Python truthiness, `dict.get`, `in`, `str()` |
| duration.dfy | `Duration` | `_parse_duration`: the pattern `^(\d+)(s|m|h)$`, the multipliers 1/60/3600, and the int64 bound of `Duration(seconds=…)` |
| backend.dfy | `Backend` | the Pub/Sub backend as an abstract state: topics and subscriptions by path, their listing order, the set of RPCs that currently fail, and a log of every RPC made |
| requests.dfy | `Requests` | how the service turns its arguments into field masks and patches (topic update, subscription update, new subscription) |
| service.dfy | `Service` | the methods of `PubSubCreatorService` |
| controller.dfy | `Controller` | the view functions' validation, formatting and status codes |
| properties.dfy | `Properties` | lemmas that relate several operations end to end |

Every RPC appends one entry to `Backend.State.log`. "No backend call" is
therefore stated as "the log is unchanged", and "only these RPCs" as a
condition on the new log entries (`Service.OnlyCalls`). A set of failing RPCs
stands for transient server errors, which every method catches. `Backend.Valid`
says that the listing orders have no duplicates, list exactly the stored paths,
and that each stored record carries its own path. Every operation preserves it.

## Model

| member | source | states |
|---|---|---|
| Duration.Parse | services/pubsub_creator.py:268-276 | A duration is accepted exactly when the text (less one final newline) is one or more ASCII digits followed by `s`, `m` or `h`; the result is the digits' value times 1, 60 or 3600 |
| Duration.ScanDigits | services/pubsub_creator.py:270-275 | Reading a digit run succeeds iff every character is a digit, and yields its decimal value on top of what was already read |
| Duration.FormatParseRoundTrip | services/pubsub_creator.py:270-275 | Any count written in decimal followed by a unit letter parses back to the count times that unit's multiplier |
| Duration.ParseIffDigitsThenUnit | services/pubsub_creator.py:270-275 | Digits then one unit letter parse, and nothing else of that shape does; the value is the digits' value times the multiplier |
| Duration.LeadingZerosAllowed | services/pubsub_creator.py:270-275 | Leading zeros are accepted: "007m" is 420 seconds |
| Duration.RejectsMissingPartsAndOtherUnits | services/pubsub_creator.py:270-272 | The empty string, digits with no unit, a unit with no digits, and any other last character are rejected |
| Duration.SevenDaysDoesNotParse | services/pubsub_creator.py:292 | The creation default "7d" is rejected, so a subscription created without a retention gets none from the service |
| Duration.RejectsForeignCharacters | services/pubsub_creator.py:270-272 | A sign, a decimal point, a space or any other non-digit, non-unit character in the matched part makes the text invalid |
| Duration.RejectsTrailingText | services/pubsub_creator.py:270-272 | Text after the unit letter makes the text invalid |
| Duration.FinalNewlineTolerated | services/pubsub_creator.py:270 | Because `$` also matches before a final newline, one trailing "\n" is accepted, and two are not |
| Duration.ParseDuration | services/pubsub_creator.py:268-276 | No match gives nothing; a match gives the seconds when they fit in an int64, and a range error otherwise |
| Text.NatToDecimal | controllers/msg_broker_controller.py:64 | The decimal numeral of a count is non-empty, all digits, and has no leading zero unless the count is zero |
| Text.DecimalRoundTrip | controllers/msg_broker_controller.py:64 | The decimal numeral of a count reads back as that count |
| Text.Lower | controllers/msg_broker_controller.py:108 | Lower-casing keeps the length, turns each ASCII capital A-Z into its small letter and leaves every other character as it is |
| Text.LowerKeepsInfix | controllers/msg_broker_controller.py:108 | A lower-case phrase inside a message is still found after the message is lower-cased |
| Text.ContainsNeedsChar | controllers/msg_broker_controller.py:144 | A phrase is never found in a text that lacks one of its characters |
| Text.LastSegment | controllers/msg_broker_controller.py:51-53 | The short name has no slash, ends the full name, and is either the whole name or follows its last slash |
| Text.LastSegmentOfSuffix | controllers/msg_broker_controller.py:83 | Text without a slash that follows text ending in a slash is the whole short name, so the short name of `prefix/name` is `name` |
| JsonValue.PyIn | controllers/msg_broker_controller.py:11 | `key in data` is key membership for an object, and raises exactly for a number, a boolean or None |
| JsonValue.AsLabels | services/pubsub_creator.py:39 | A labels object is accepted iff every value is a string, and its keys and values are kept |
| JsonValue.LabelPair | services/pubsub_creator.py:165 | An item of a labels iterable unpacks into a key and a value iff it is a list of two strings or a two-character string; the list gives its two strings, the string its two characters |
| JsonValue.ApplyPairs | services/pubsub_creator.py:165 | Updating labels from a list succeeds iff every item is a string pair; every key of the result comes from some item, takes the value of the last item naming it, and every item's key is present |
| JsonValue.LabelsUpdate | services/pubsub_creator.py:165 | `labels.update(value)` takes an object's entries, a list's pairs, nothing from "" or [], and fails on any other string, a number, a boolean or None |
| JsonValue.LabelsToJson | services/pubsub_creator.py:72 | Labels rendered as JSON read back as the same labels |
| Requests.TopicRequest | services/pubsub_creator.py:160-174 | The topic mask holds "labels" iff labels is not None, and "message_retention_duration" iff a retention was given, with no duplicates and labels first; the patch carries what `labels.update` makes of the labels value and the parsed retention; a retention that does not parse is the error "Invalid message_retention_duration format" |
| Requests.EmptyLabelsClearTopicLabels | services/pubsub_creator.py:164-166 | Labels given as [] or "" are no error: the mask names "labels" alone and the patch carries no labels, so the update clears them |
| Requests.SelectMembers | services/pubsub_creator.py:224-246 | Selecting fields keeps exactly the wanted ones |
| Requests.SelectNone | services/pubsub_creator.py:224-246 | When no field is wanted, the selection is empty |
| Requests.IntOf | services/pubsub_creator.py:225 | The int32 field takes an integer as itself and a boolean as 1 or 0, and refuses everything else |
| Requests.BoolOf | services/pubsub_creator.py:229 | The bool field takes a boolean as itself and an integer as its truth value (non-zero is true), and refuses everything else |
| Requests.FieldStep | services/pubsub_creator.py:224-246 | One key-presence check appends its mask identifier exactly when wanted and sets only its own patch field; the ack deadline accepts a boolean as 0 or 1, retain acked accepts an integer as its truth value, and None clears either field |
| Requests.FieldSteps | services/pubsub_creator.py:220-246 | Running the checks in order appends the wanted identifiers in that order, carries the configured value for each (a boolean ack deadline as 0 or 1, an integer retain flag as its truth value), and leaves every other field alone |
| Requests.SubscriptionRequest | services/pubsub_creator.py:219-246 | The subscription mask is the wanted fields in the order ack deadline, retain acked, retention, labels, push config; "push_endpoint" maps to "push_config"; the request fails only when a present value is one its field's setter refuses, where the ack deadline takes an integer, a boolean or None and retain acked a boolean, an integer or None; labels are what `labels.update` makes of the value; a retention that does not parse is silently left out |
| Requests.NoKeysNoMask | services/pubsub_creator.py:220-249 | A configuration with none of the five keys gives an empty mask and no error |
| Requests.CreationRetention | services/pubsub_creator.py:292 | The creation retention succeeds iff it is absent or a string within the int64 range; it is set iff the given text parses, to the seconds it denotes; the default "7d" sets nothing |
| Requests.NewSubscriptionRequest | services/pubsub_creator.py:280-299 | The request succeeds iff the retention is acceptable, the push endpoint is falsy or a string, the ack deadline an integer, a boolean or None, retain acked a boolean, an integer or None, and labels an object of strings or None; given values are passed through, a boolean ack deadline as 0 or 1 and an integer retain flag as its truth value, None leaves the ack deadline and retain acked unset and the labels empty; absent keys default to 10, false and no labels; the retention is set only when the given text parses; there is a push config iff the endpoint is truthy |
| Service.CreateTopic | services/pubsub_creator.py:30-48 | An uninitialised client raises; otherwise one create RPC, which succeeds iff the topic is new and the call does not fail, and stores `labels or {}` |
| Service.DeleteTopic | services/pubsub_creator.py:50-57 | One delete RPC on the computed path; success iff the topic existed; subscriptions stay |
| Service.FetchSubscriptions | services/pubsub_creator.py:121-139 | Fetching each path in turn succeeds iff every path exists, and yields one summary per path, in order |
| Service.ReportedSeconds | services/pubsub_creator.py:108 | The reported retention is below a day, equals the stored seconds when those are below a day, and differs from them by whole days |
| Service.AsTimeDelta | services/pubsub_creator.py:108 | A stored duration splits into whole days and fewer than 86400 remaining seconds that add up to it |
| Service.IntendedSeconds | services/pubsub_creator.py:108 | The total length of the timedelta gives back the stored seconds, a day or more included |
| Service.ListTopicSubscriptions | services/pubsub_creator.py:116-144 | Never an error: a failed listing gives an empty list; otherwise one summary per attached subscription, in order, each with the seconds part of its retention |
| Service.ListTopicSubscriptionsIgnoresLog | services/pubsub_creator.py:116-144 | Listing a topic's subscriptions depends only on the stored resources, not on the RPCs made before |
| Service.SummarizeTopics | services/pubsub_creator.py:66-75 | One entry per topic, in order, with its name, its labels and the subscriptions listed for it |
| Service.ListTopics | services/pubsub_creator.py:59-79 | Not initialised is an error with no call; otherwise the project's topics in the backend's order, each with its name, labels and subscriptions; nothing is changed |
| Service.ShownSchema | services/pubsub_creator.py:99-106 | Schema settings are shown iff some field of them is set |
| Service.GetTopic | services/pubsub_creator.py:81-114 | Success iff the topic exists; the stored name, labels, storage regions, KMS key name and satisfies_pzs are reported, the schema settings only when some field of them is set, the retention as the seconds part of its timedelta (0 when unset), and the subscriptions as listed for the topic; a missing topic gives "Failed to get topic: " plus the not-found text |
| Service.AddSubscription | services/pubsub_creator.py:278-317 | A missing or empty name is "Subscription name is required" with no call; a refused setting is an error with no call; otherwise exactly one create RPC on the subscription path, which succeeds iff the path is new, the topic exists and the call does not fail; a success stores the requested subscription (backend defaults for unset fields and for a 0 ack deadline), appends it to the listing order and returns its dict; a failure changes nothing stored. The dict carries the ack deadline and retain-acked flag as their setters convert them, the given labels and push endpoint, false and no labels for None, the creation defaults for absent keys, and the seconds part of the retention |
| Service.SendCreate | services/pubsub_creator.py:302-317 | The create RPC succeeds iff the path is new, the topic exists and the call does not fail; a success stores exactly the requested subscription and returns its dict, a failure changes nothing stored |
| Service.UpdateSubscription | services/pubsub_creator.py:211-266 | A missing or empty name gives "Subscription name is required" with no call; otherwise, when every present value is accepted by its field's setter, exactly one update RPC with the key-presence mask, even when that mask is empty; it succeeds iff the mask is non-empty, the subscription exists and the call does not fail, and then stores the subscription with the masked fields replaced and returns that subscription's dict; a refused value is an error with no call, and no failure changes anything stored |
| Service.UpdateTopicStep | services/pubsub_creator.py:176-190 | An empty mask makes no call and reports "No updates were necessary for the topic" with the computed path; otherwise one update RPC |
| Service.MaybeAdd | services/pubsub_creator.py:192-197 | The add step runs iff its configuration is truthy, and it only creates subscriptions |
| Service.MaybeUpdate | services/pubsub_creator.py:199-204 | The update step runs iff its configuration is truthy, and it only updates subscriptions |
| Service.UpdateTopic | services/pubsub_creator.py:146-209 | Not initialised, or bad arguments, is an error with no call; an empty mask reports "No updates were necessary for the topic" with the computed path and no topic RPC; success iff the topic step succeeds; then the add step and the update step run, in that order, on the topic path, and their replies are attached iff their configurations are truthy; only topic updates and subscription creates and updates are called |
| Controller.ViewJson | services/pubsub_creator.py:253-263 | The subscription dict of an add or update holds the name, the topic, the bare push endpoint or None, the ack deadline, the retain flag, the retention seconds and the labels |
| Controller.SecondsText | controllers/msg_broker_controller.py:64 | The retention text is the decimal seconds followed by " seconds", and its digits read back as those seconds |
| Controller.Attach | services/pubsub_creator.py:194-204 | A step's outcome adds its success key or its error key, never both, and leaves other keys alone |
| Controller.ReportJson | services/pubsub_creator.py:180-206 | The success dict keeps "status" and "topic_path" and holds exactly one of the two keys of each subscription step that ran |
| Controller.SummaryJson | controllers/msg_broker_controller.py:56-67 | A formatted subscription holds its short name, its full name, its push config as an object with the endpoint or None, its ack deadline, its retention as "<n> seconds" and its labels |
| Controller.SummariesJson | controllers/msg_broker_controller.py:56-68 | The formatted subscriptions are as many as the service's, in the same order |
| Controller.TopicSummaryJson | controllers/msg_broker_controller.py:50-55 | A formatted topic holds its short name, its full name, its labels and its formatted subscriptions |
| Controller.TopicsJson | controllers/msg_broker_controller.py:48-70 | The formatted topics are as many as the service's, in the same order |
| Controller.TopicDetailJson | controllers/msg_broker_controller.py:82-104 | The formatted topic holds its short name, full name, labels, the storage policy dict of its regions, KMS key name, the schema settings dict (None iff unset), satisfies_pzs, its retention as "<n> seconds" and its formatted subscriptions |
| Controller.StoragePolicyJson | services/pubsub_creator.py:93-97 | The storage policy dict lists the allowed regions, in order, under "allowed_persistence_regions" |
| Controller.SchemaJson | services/pubsub_creator.py:99-106 | The schema settings are None iff not shown, and otherwise a dict of the schema name and the encoding |
| Controller.CreateTopic | controllers/msg_broker_controller.py:9-19 | An empty payload, or one without project_id or topic_name, is 400 "Invalid payload" with no call; otherwise 201 iff the service succeeds, with the created topic path in "topic_path" and the message; 500 with the service's message on its error |
| Controller.ListTopics | controllers/msg_broker_controller.py:43-74 | 200 iff the service succeeds, with each topic formatted in order; 500 otherwise |
| Controller.GetTopic | controllers/msg_broker_controller.py:77-108 | 200 on success; on error 404 iff the lower-cased message contains "not found", else 500 |
| Controller.ConfigProblem | controllers/msg_broker_controller.py:123-133 | A truthy subscription configuration must be an object with a "name" key; otherwise the format or the name message |
| Controller.UpdateResponse | controllers/msg_broker_controller.py:143-148 | 200 on success, 503 "PubSub service is not available" iff the message says "not initialized", 400 with the service's message otherwise |
| Controller.UpdateTopic | controllers/msg_broker_controller.py:111-148 | Payload checks answer 400 before any call, in source order; after the call, 200, 503 or 400 as the service's reply dictates |
| Properties.ShortNameOfTopicPath | controllers/msg_broker_controller.py:83-84 | The short name of projects/p/topics/n is n when n has no slash |
| Properties.ShortNameOfSubscriptionPath | controllers/msg_broker_controller.py:93-96 | The short name of projects/p/subscriptions/n is n when n has no slash |
| Properties.CreateThenGet | services/pubsub_creator.py:36-41 | A topic just created reads back with the labels it was given and retention 0 |
| Backend.TopicsUnderMembers | services/pubsub_creator.py:67 | A topic is listed iff it is stored under a path of the listing order that lies under the project |
| Properties.CreateThenList | services/pubsub_creator.py:59-79 | A topic just created is in the next listing of its project, with its full path and the labels it was given |
| Properties.UpdateRetentionThenGet | services/pubsub_creator.py:168-179 | After a retention-only update, a get reports the seconds part of the parsed duration, which is the parsed seconds whenever they are below a day |
| Properties.DayLongRetentionIsStored | services/pubsub_creator.py:168-179 | An update to a retention of "24h" succeeds and stores 86400 seconds |
| Properties.DayLongRetentionReadsAsZero | services/pubsub_creator.py:108 | A topic that stores a retention of 86400 seconds is reported with 0, while the total length would be 86400 |
| Properties.DefaultRetentionReadsAsZero | services/pubsub_creator.py:312 | A subscription created without a retention gets the backend's seven days, and the reply reports 0 seconds |
| Duration.DayInHours | services/pubsub_creator.py:270-275 | "24h" parses to 86400 seconds |
| Properties.UpdateTopicIdempotent | services/pubsub_creator.py:160-179 | Repeating a successful topic update succeeds again and leaves the topics unchanged |
| Properties.MissingTopicIs404 | controllers/msg_broker_controller.py:107-108 | Getting a topic the backend lacks answers 404 |
| Properties.DeleteThenGetIs404 | controllers/msg_broker_controller.py:107-108 | After a successful delete, getting the topic answers 404 |
| Properties.UninitializedGetIs500 | controllers/msg_broker_controller.py:107-108 | With an uninitialised service, get answers 500, not 404 |
| Properties.UninitializedUpdateIs503 | controllers/msg_broker_controller.py:143-145 | With an uninitialised service, a well-formed update answers 503 with no call |
| Properties.InvalidRetentionRefused | services/pubsub_creator.py:164-174 | With any acceptable labels, a retention that does not parse is refused before any RPC |
| Properties.InvalidRetentionIsNot503 | controllers/msg_broker_controller.py:144 | The invalid-retention message does not mention initialisation |
| Properties.InvalidRetentionIs400 | controllers/msg_broker_controller.py:143-146 | A retention that does not parse answers 400 "Invalid message_retention_duration format" with no backend call |
| Properties.EmptyUpdateMakesNoCall | services/pubsub_creator.py:176-190 | An update naming only the topic answers 200 with no backend call |
| Properties.NameOnlySubscriptionUpdateIsRefused | services/pubsub_creator.py:248-251 | An update configuration with only a name still reaches the backend with an empty mask, and the backend refuses it |
| Properties.IntRetainFlagRequest | services/pubsub_creator.py:228-230 | A configuration with a name and an integer retain_acked_messages gives the mask ["retain_acked_messages"] and a patch holding the integer's truth value |
| Properties.IntRetainFlagIsSent | services/pubsub_creator.py:228-251 | Such an update makes exactly one update RPC, on the subscription's path, with that one-field mask, and a success reports the truth value |
| Properties.BoolAckDeadlineIsAccepted | services/pubsub_creator.py:290 | A boolean ack deadline of a new subscription is sent as 1 or 0; a created subscription then reports 1 for true and the backend's default 10 for false |
| Properties.UpdateSubscriptionSetsAckDeadline | services/pubsub_creator.py:224-226 | A successful subscription update reports the ack deadline its configuration gave, or the backend's default 10 when it gave 0 |
| Properties.AddThenListSubscriptions | services/pubsub_creator.py:278-317 | After a successful add, the topic's subscription listing is the earlier listing plus one entry with the name, push endpoint, ack deadline, retention and labels the add reported |
| Properties.ListAfterStoring | services/pubsub_creator.py:116-139 | Storing one more subscription of a topic at the end of the order extends the topic's listing by its summary and keeps the earlier entries |
| Backend.SubscriptionsOfAppend | services/pubsub_creator.py:118-122 | A subscription stored under a new path at the end of the order is listed for its topic after the ones listed before |

## Left out

- Client construction and credentials (services/pubsub_creator.py:13-27; config/config.py is not part of this model). Only the outcome is kept: `Service.Creator` records whether the clients were built and the project of the service account.
- The `@retry.Retry()` decorator on create. The body catches every exception. The one that escapes, an AttributeError on an uninitialised client, is not one the default retry predicate retries. So the decorator has nothing to add.
- The delete and delete-subscription view functions. The first passes two arguments to the one-argument `delete_pubsub_topic`; the second calls a method the service does not define. Both raise on every valid payload, so there is no decision logic to model. `Service.DeleteTopic` models the service method itself.
- Flask wiring (routes, app, main, error handlers) and the pydantic models, which carry no decision logic.
- Flask's own handling of `request.json`: a non-JSON content type or malformed JSON never reaches the view. The model starts from the parsed JSON value.
- Python's `\d` also matches non-ASCII decimal digits, which `int()` accepts. The model accepts only 0-9.
- Python's limit on converting very long digit strings with `int()` is not modelled. Such a string exceeds an int64 anyway and is an error either way, but with a different message.
- `JsonValue.PyStr` renders lists and dicts as fixed placeholders rather than Python's repr. They only end up inside resource paths.
- The texts of Python exceptions (TypeError, AttributeError, ValueError) and of the backend's errors are stand-ins. Only the fixed prefixes and the phrase "not found" that the controller inspects are significant.
- The width of the schema encoding enum is not checked; the backend only stores the values it was given.
- Backend server semantics: the Pub/Sub server is not part of this model's source. `Backend` follows the Pub/Sub API's documented behaviour:
  - an empty update mask is refused;
  - the default ack deadline is 10 seconds and the default retention 604800 seconds;
  - `ack_deadline_seconds` is a proto3 int32 without presence, so an explicit 0 arrives as unset and gets the 10-second default (`Backend.AppliedAckDeadline`), at creation and on update;
  - a deleted topic's subscriptions point at `_deleted-topic_`;
  - a failing RPC answers 503.

  Retention and ack-deadline bounds, pagination of list calls, and delivery are left out.
- Logging and `print` output.
- Text.Lower: lower-cases only ASCII letters, while Python's `str.lower()` lower-cases every Unicode letter. The two phrases the controller looks for, "not found" and "not initialized", are ASCII. Only two non-ASCII characters lower to ASCII letters: the Kelvin sign to "k", which neither phrase holds, and the dotted capital I to "i" followed by a combining dot, while every "i" in the phrases is followed by a letter. So the 404 and 503 decisions come out the same.
- Floating-point numbers are not part of `JsonValue.Json`. Protobuf refuses a float as an ack deadline or a retain flag, because both field checkers require `__index__`, and as a labels value; the model refuses every value outside its JSON types, but with a different message.
- JsonValue.LabelsUpdate: an object given as an item of a labels list unpacks into its two keys in Python. A JSON object has no key order here, so such an item is refused.
- JsonValue.AsLabels: at creation (`labels or {}` for a topic, `config.get("labels", {})` for a subscription) only an object of strings or None is accepted. What proto-plus's message constructor makes of a list of pairs there is not modelled.
- Requests.NewSubscriptionRequest: creation labels given as a list of pairs are refused, where proto-plus may accept them as a map; the contract promises nothing for that input beyond the refusal.
- Service.CreateTopic: topic labels given as a truthy list of pairs are refused, where proto-plus may accept them as a map; the contract promises nothing for that input beyond the refusal.
- Requests.IntOf: the int32 range of `ack_deadline_seconds` is not checked, so an integer outside it is accepted here where protobuf raises a ValueError.
- Service.ReportedSeconds: a Python timedelta holds at most 999999999 days. A retention beyond that does not fit one, and proto-plus's conversion would fail; the backend's retention bounds keep stored values far below it, so the model does not bound it.
- The answer of a get or list keeps the `.seconds` reading of the source (see Findings). The corrected reading, `Service.IntendedSeconds`, is stated and proved, but the operations report what the code as written reports.

## Findings

| source | as written | input that shows it | evidently intended | confidence | as-written member | corrected member |
|---|---|---|---|---|---|---|
| services/pubsub_creator.py:108 | The retention is reported as `message_retention_duration.seconds`. proto-plus hands a Duration field over as a `datetime.timedelta`, whose `seconds` attribute leaves out whole days. The same reading is at lines 135, 261 and 312 | A topic updated with "24h" and then read back: 86400 seconds are stored and 0 is reported. A subscription created without a retention has 604800 seconds and is reported with 0 | The retention in seconds, `int(total_seconds())`: 86400 and 604800 | not executed | Properties.DayLongRetentionReadsAsZero | Service.IntendedSeconds |

=== FILE: backend.dfy ===
/** The Pub/Sub administration backend the service talks to, kept abstract:
    topics and subscriptions stored by path, the order in which the backend
    lists them, the set of RPCs that currently fail (the backend is down for
    them), and a log with one entry per RPC the service issues. Nothing here
    is the service's own logic; it is the environment the service is
    verified against. */
module Backend {
  import opened Wrappers

  type Path = string
  type Labels = map<string, string>

  /** Pub/Sub's defaults for a subscription field left unset at creation. */
  const DefaultAckDeadline: int := 10
  const DefaultRetention: nat := 604800

  /** The topic a subscription points at once its own topic is deleted. */
  const DeletedTopic: Path := "_deleted-topic_"

  /** The ack deadline the backend applies for a requested one. The field is
      a proto3 int32 without presence, so an unset deadline and an explicit 0
      arrive alike, and the backend then uses its default of 10 seconds. */
  function AppliedAckDeadline(requested: int): (r: int)
    ensures requested != 0 ==> r == requested
    ensures requested == 0 ==> r == DefaultAckDeadline
    ensures r != 0
  {
    if requested == 0 then DefaultAckDeadline else requested
  }

  datatype SchemaSettings = SchemaSettings(schema: string, encoding: int)

  /** A topic as the backend stores it; `retention` is None while unset. */
  datatype Topic = Topic(
    name: Path,
    labels: Labels,
    retention: Option<nat>,
    storageRegions: seq<string>,
    kmsKeyName: string,
    schema: Option<SchemaSettings>,
    satisfiesPzs: bool)

  /** A subscription; an empty `pushEndpoint` means a pull subscription. */
  datatype Subscription = Subscription(
    name: Path,
    topic: Path,
    pushEndpoint: string,
    ackDeadline: int,
    retainAcked: bool,
    retention: nat,
    labels: Labels)

  /** The values carried by an update request; only the fields the update
      mask names are applied. */
  datatype TopicPatch = TopicPatch(labels: Labels, retention: nat)

  datatype SubscriptionPatch = SubscriptionPatch(
    ackDeadline: int,
    retainAcked: bool,
    retention: nat,
    labels: Labels,
    pushEndpoint: string)

  /** A create-subscription request; None marks a field left unset. */
  datatype NewSubscription = NewSubscription(
    name: Path,
    topic: Path,
    pushEndpoint: string,
    ackDeadline: Option<int>,
    retainAcked: Option<bool>,
    retention: Option<nat>,
    labels: Labels)

  datatype Rpc =
    | CreateTopicRpc
    | GetTopicRpc
    | ListTopicsRpc
    | UpdateTopicRpc
    | DeleteTopicRpc
    | ListTopicSubscriptionsRpc
    | GetSubscriptionRpc
    | CreateSubscriptionRpc
    | UpdateSubscriptionRpc

  /** One RPC as issued: which one, on which resource, with which update mask
      (empty for RPCs that take none). */
  datatype Call = Call(rpc: Rpc, resource: Path, mask: seq<string>)

  datatype Error =
    | NotFound(resource: Path)
    | AlreadyExists(resource: Path)
    | InvalidArgument(detail: string)
    | Unavailable

  /** The text of the exception the client library raises, as `str(e)`. */
  function ErrorText(e: Error): string {
    match e
    case NotFound(r) => "404 Resource not found (resource=" + r + ")."
    case AlreadyExists(r) => "409 Resource already exists in the project (resource=" + r + ")."
    case InvalidArgument(d) => "400 " + d
    case Unavailable => "503 The service is currently unavailable."
  }

  datatype State = State(
    topics: map<Path, Topic>,
    subscriptions: map<Path, Subscription>,
    topicOrder: seq<Path>,
    subscriptionOrder: seq<Path>,
    failing: set<Rpc>,
    log: seq<Call>)

  /** The result of one RPC and the backend after it. */
  datatype Answer<T> = Answer(result: Result<T, Error>, after: State)

  predicate NoDuplicates<T(==)>(s: seq<T>) {
    forall i, j | 0 <= i < j < |s| :: s[i] != s[j]
  }

  /** Well-formedness: each store is keyed by the resource's own name and
      listed exactly once in its order. */
  ghost predicate Valid(b: State) {
    && NoDuplicates(b.topicOrder)
    && (forall p :: p in b.topicOrder <==> p in b.topics)
    && (forall p | p in b.topics :: b.topics[p].name == p)
    && NoDuplicates(b.subscriptionOrder)
    && (forall p :: p in b.subscriptionOrder <==> p in b.subscriptions)
    && (forall p | p in b.subscriptions :: b.subscriptions[p].name == p)
  }

  /** Everything but the log is the same: no resource changed. */
  predicate SameStore(b: State, b': State) {
    && b'.topics == b.topics
    && b'.subscriptions == b.subscriptions
    && b'.topicOrder == b.topicOrder
    && b'.subscriptionOrder == b.subscriptionOrder
    && b'.failing == b.failing
  }

  function Record(b: State, rpc: Rpc, resource: Path, mask: seq<string>): (b': State)
    ensures SameStore(b, b') && b'.log == b.log + [Call(rpc, resource, mask)]
  {
    b.(log := b.log + [Call(rpc, resource, mask)])
  }

  /** The sequence without x. */
  function Without(s: seq<Path>, x: Path): (r: seq<Path>)
    ensures forall y :: y in r <==> y in s && y != x
    ensures NoDuplicates(s) ==> NoDuplicates(r)
  {
    if |s| == 0 then []
    else
      var rest := Without(s[1..], x);
      if s[0] == x then rest
      else
        TailFacts(s);
        ConsFresh(s[0], rest);
        [s[0]] + rest
  }

  lemma TailFacts<T>(s: seq<T>)
    requires |s| > 0
    ensures NoDuplicates(s) ==> NoDuplicates(s[1..]) && s[0] !in s[1..]
  {
    if NoDuplicates(s) {
      forall i, j | 0 <= i < j < |s[1..]| ensures s[1..][i] != s[1..][j] {
        assert s[1..][i] == s[i + 1] && s[1..][j] == s[j + 1];
      }
      forall j | 0 <= j < |s[1..]| ensures s[1..][j] != s[0] {
        assert s[1..][j] == s[j + 1];
      }
    }
  }

  lemma ConsFresh<T>(x: T, s: seq<T>)
    ensures NoDuplicates(s) && x !in s ==> NoDuplicates([x] + s)
  {
    if NoDuplicates(s) && x !in s {
      var s' := [x] + s;
      forall i, j | 0 <= i < j < |s'| ensures s'[i] != s'[j] {
        assert s'[j] == s[j - 1];
        if i > 0 { assert s'[i] == s[i - 1]; }
      }
    }
  }

  lemma AppendFresh<T>(s: seq<T>, x: T)
    ensures NoDuplicates(s) && x !in s ==> NoDuplicates(s + [x])
  {
    var s' := s + [x];
    if !NoDuplicates(s) || x in s { return; }
    forall i, j | 0 <= i < j < |s'| ensures s'[i] != s'[j] {
      if j == |s| {
        assert s'[i] == s[i];
      } else {
        assert s'[i] == s[i] && s'[j] == s[j];
      }
    }
  }

  function CreateTopic(b: State, path: Path, labels: Labels): (a: Answer<Topic>)
    ensures a.after.log == b.log + [Call(CreateTopicRpc, path, [])]
    ensures a.result.Success? <==> CreateTopicRpc !in b.failing && path !in b.topics
    ensures a.result.Failure? ==> SameStore(b, a.after)
    ensures a.result.Success? ==> a.result.value.name == path && a.after.topics == b.topics[path := a.result.value]
    ensures a.result.Success? ==> a.result.value.labels == labels && a.result.value.retention.None?
    ensures a.after.failing == b.failing
    ensures Valid(b) ==> Valid(a.after)
  {
    var b1 := Record(b, CreateTopicRpc, path, []);
    if CreateTopicRpc in b.failing then Answer(Failure(Unavailable), b1)
    else if path in b.topics then Answer(Failure(AlreadyExists(path)), b1)
    else
      var t := Topic(path, labels, None, [], "", None, false);
      AppendFresh(b.topicOrder, path);
      Answer(Success(t), b1.(topics := b.topics[path := t], topicOrder := b.topicOrder + [path]))
  }

  function GetTopic(b: State, path: Path): (a: Answer<Topic>)
    ensures SameStore(b, a.after) && a.after.log == b.log + [Call(GetTopicRpc, path, [])]
    ensures a.result.Success? <==> GetTopicRpc !in b.failing && path in b.topics
    ensures a.result.Success? ==> a.result.value == b.topics[path]
    ensures a.result.Failure? && GetTopicRpc !in b.failing ==> a.result.error == NotFound(path)
  {
    var b1 := Record(b, GetTopicRpc, path, []);
    if GetTopicRpc in b.failing then Answer(Failure(Unavailable), b1)
    else if path !in b.topics then Answer(Failure(NotFound(path)), b1)
    else Answer(Success(b.topics[path]), b1)
  }

  /** The stored topics whose paths are listed in `order` and start with `prefix`, in that order. */
  function TopicsUnder(topics: map<Path, Topic>, order: seq<Path>, prefix: string): (r: seq<Topic>)
    ensures |r| <= |order|
  {
    if |order| == 0 then []
    else
      var rest := TopicsUnder(topics, order[1..], prefix);
      if order[0] in topics && prefix <= order[0] then [topics[order[0]]] + rest else rest
  }

  /** A topic is listed exactly when some stored path of `order` under
      `prefix` holds it. */
  lemma {:induction false} TopicsUnderMembers(topics: map<Path, Topic>, order: seq<Path>, prefix: string, t: Topic)
    ensures t in TopicsUnder(topics, order, prefix) <==>
      exists i | 0 <= i < |order| :: order[i] in topics && prefix <= order[i] && topics[order[i]] == t
  {
    if |order| > 0 {
      TopicsUnderMembers(topics, order[1..], prefix, t);
      if exists i | 0 <= i < |order| :: order[i] in topics && prefix <= order[i] && topics[order[i]] == t {
        var i :| 0 <= i < |order| && order[i] in topics && prefix <= order[i] && topics[order[i]] == t;
        if i > 0 { assert order[1..][i - 1] == order[i]; }
      }
      if exists i | 0 <= i < |order| - 1 :: order[1..][i] in topics && prefix <= order[1..][i] && topics[order[1..][i]] == t {
        var i :| 0 <= i < |order| - 1 && order[1..][i] in topics && prefix <= order[1..][i] && topics[order[1..][i]] == t;
        assert order[i + 1] == order[1..][i];
      }
    }
  }

  /** `list_topics(project)`: the project's topics in the backend's order. */
  function ListTopics(b: State, project: Path): (a: Answer<seq<Topic>>)
    ensures SameStore(b, a.after) && a.after.log == b.log + [Call(ListTopicsRpc, project, [])]
    ensures a.result.Success? <==> ListTopicsRpc !in b.failing
  {
    var b1 := Record(b, ListTopicsRpc, project, []);
    if ListTopicsRpc in b.failing then Answer(Failure(Unavailable), b1)
    else Answer(Success(TopicsUnder(b.topics, b.topicOrder, project + "/topics/")), b1)
  }

  /** The stored subscriptions listed in `order` that are attached to `topic`. */
  function SubscriptionsOf(subscriptions: map<Path, Subscription>, order: seq<Path>, topic: Path): (r: seq<Path>)
    ensures forall p | p in r :: p in subscriptions && subscriptions[p].topic == topic
  {
    if |order| == 0 then []
    else
      var rest := SubscriptionsOf(subscriptions, order[1..], topic);
      if order[0] in subscriptions && subscriptions[order[0]].topic == topic then [order[0]] + rest else rest
  }

  /** A subscription stored under a new path at the end of the order is
      listed for its topic after the ones listed before. */
  lemma {:induction false} SubscriptionsOfAppend(subscriptions: map<Path, Subscription>, order: seq<Path>,
                                                 topic: Path, path: Path, s: Subscription)
    requires path !in order && s.topic == topic
    ensures SubscriptionsOf(subscriptions[path := s], order + [path], topic) ==
            SubscriptionsOf(subscriptions, order, topic) + [path]
  {
    if |order| == 0 {
      assert order + [path] == [path];
      assert [path][1..] == [];
    } else {
      assert (order + [path])[1..] == order[1..] + [path];
      SubscriptionsOfAppend(subscriptions, order[1..], topic, path, s);
      assert order[0] != path;
    }
  }

  function ListTopicSubscriptions(b: State, topic: Path): (a: Answer<seq<Path>>)
    ensures SameStore(b, a.after) && a.after.log == b.log + [Call(ListTopicSubscriptionsRpc, topic, [])]
    ensures a.result.Success? <==> ListTopicSubscriptionsRpc !in b.failing
  {
    var b1 := Record(b, ListTopicSubscriptionsRpc, topic, []);
    if ListTopicSubscriptionsRpc in b.failing then Answer(Failure(Unavailable), b1)
    else Answer(Success(SubscriptionsOf(b.subscriptions, b.subscriptionOrder, topic)), b1)
  }

  function GetSubscription(b: State, path: Path): (a: Answer<Subscription>)
    ensures SameStore(b, a.after) && a.after.log == b.log + [Call(GetSubscriptionRpc, path, [])]
    ensures a.result.Success? <==> GetSubscriptionRpc !in b.failing && path in b.subscriptions
  {
    var b1 := Record(b, GetSubscriptionRpc, path, []);
    if GetSubscriptionRpc in b.failing then Answer(Failure(Unavailable), b1)
    else if path !in b.subscriptions then Answer(Failure(NotFound(path)), b1)
    else Answer(Success(b.subscriptions[path]), b1)
  }

  /** The topic with the masked fields replaced by the patch's. */
  function PatchTopic(t: Topic, p: TopicPatch, mask: seq<string>): Topic {
    t.(labels := if "labels" in mask then p.labels else t.labels,
       retention := if "message_retention_duration" in mask then Some(p.retention) else t.retention)
  }

  /** `update_topic`: the backend refuses an empty mask, as the Pub/Sub API documents. */
  function UpdateTopic(b: State, path: Path, p: TopicPatch, mask: seq<string>): (a: Answer<Topic>)
    ensures a.after.log == b.log + [Call(UpdateTopicRpc, path, mask)]
    ensures a.result.Success? <==> UpdateTopicRpc !in b.failing && |mask| > 0 && path in b.topics
    ensures a.result.Failure? ==> SameStore(b, a.after)
    ensures a.result.Success? ==> a.result.value == PatchTopic(b.topics[path], p, mask)
    ensures a.result.Success? ==> a.after.topics == b.topics[path := a.result.value]
    ensures a.after.subscriptions == b.subscriptions && a.after.failing == b.failing
    ensures Valid(b) ==> Valid(a.after)
  {
    var b1 := Record(b, UpdateTopicRpc, path, mask);
    if UpdateTopicRpc in b.failing then Answer(Failure(Unavailable), b1)
    else if |mask| == 0 then Answer(Failure(InvalidArgument("update_mask must be non-empty")), b1)
    else if path !in b.topics then Answer(Failure(NotFound(path)), b1)
    else
      var t := PatchTopic(b.topics[path], p, mask);
      Answer(Success(t), b1.(topics := b.topics[path := t]))
  }

  function DeleteTopic(b: State, path: Path): (a: Answer<()>)
    ensures a.after.log == b.log + [Call(DeleteTopicRpc, path, [])]
    ensures a.result.Success? <==> DeleteTopicRpc !in b.failing && path in b.topics
    ensures a.result.Failure? ==> SameStore(b, a.after)
    ensures a.result.Success? ==> a.after.topics == b.topics - {path}
    ensures a.after.failing == b.failing
    ensures Valid(b) ==> Valid(a.after)
  {
    var b1 := Record(b, DeleteTopicRpc, path, []);
    if DeleteTopicRpc in b.failing then Answer(Failure(Unavailable), b1)
    else if path !in b.topics then Answer(Failure(NotFound(path)), b1)
    else
      var subs := map p | p in b.subscriptions ::
        if b.subscriptions[p].topic == path then b.subscriptions[p].(topic := DeletedTopic) else b.subscriptions[p];
      Answer(Success(()), b1.(topics := b.topics - {path}, topicOrder := Without(b.topicOrder, path), subscriptions := subs))
  }

  /** The subscription the backend stores for a create request: unset fields
      take the backend's defaults. */
  function Created(req: NewSubscription): (s: Subscription)
    ensures s.name == req.name && s.topic == req.topic && s.pushEndpoint == req.pushEndpoint
    ensures s.ackDeadline == (if req.ackDeadline.Some? && req.ackDeadline.value != 0 then req.ackDeadline.value
                              else DefaultAckDeadline)
    ensures s.retainAcked == (req.retainAcked == Some(true))
    ensures s.retention == (if req.retention.Some? then req.retention.value else DefaultRetention)
    ensures s.labels == req.labels
  {
    Subscription(req.name, req.topic, req.pushEndpoint,
      AppliedAckDeadline(req.ackDeadline.GetOr(0)), req.retainAcked.GetOr(false),
      req.retention.GetOr(DefaultRetention), req.labels)
  }

  function CreateSubscription(b: State, req: NewSubscription): (a: Answer<Subscription>)
    ensures a.after.log == b.log + [Call(CreateSubscriptionRpc, req.name, [])]
    ensures a.result.Success? <==>
      CreateSubscriptionRpc !in b.failing && req.name !in b.subscriptions && req.topic in b.topics
    ensures a.result.Failure? ==> SameStore(b, a.after)
    ensures a.result.Success? ==>
      && a.after.subscriptions == b.subscriptions[req.name := a.result.value]
      && a.after.subscriptionOrder == b.subscriptionOrder + [req.name]
      && a.after.topics == b.topics
    ensures a.result.Success? ==> a.result.value == Created(req)
    ensures a.after.failing == b.failing
    ensures Valid(b) ==> Valid(a.after)
  {
    var b1 := Record(b, CreateSubscriptionRpc, req.name, []);
    if CreateSubscriptionRpc in b.failing then Answer(Failure(Unavailable), b1)
    else if req.name in b.subscriptions then Answer(Failure(AlreadyExists(req.name)), b1)
    else if req.topic !in b.topics then Answer(Failure(NotFound(req.topic)), b1)
    else
      var s := Created(req);
      AppendFresh(b.subscriptionOrder, req.name);
      Answer(Success(s), b1.(subscriptions := b.subscriptions[req.name := s],
                             subscriptionOrder := b.subscriptionOrder + [req.name]))
  }

  function PatchSubscription(s: Subscription, p: SubscriptionPatch, mask: seq<string>): Subscription {
    s.(ackDeadline := if "ack_deadline_seconds" in mask then AppliedAckDeadline(p.ackDeadline) else s.ackDeadline,
       retainAcked := if "retain_acked_messages" in mask then p.retainAcked else s.retainAcked,
       retention := if "message_retention_duration" in mask then p.retention else s.retention,
       labels := if "labels" in mask then p.labels else s.labels,
       pushEndpoint := if "push_config" in mask then p.pushEndpoint else s.pushEndpoint)
  }

  /** `update_subscription`: like `update_topic`, an empty mask is refused. */
  function UpdateSubscription(b: State, path: Path, p: SubscriptionPatch, mask: seq<string>): (a: Answer<Subscription>)
    ensures a.after.log == b.log + [Call(UpdateSubscriptionRpc, path, mask)]
    ensures a.result.Success? <==> UpdateSubscriptionRpc !in b.failing && |mask| > 0 && path in b.subscriptions
    ensures a.result.Failure? ==> SameStore(b, a.after)
    ensures a.result.Success? ==> a.result.value == PatchSubscription(b.subscriptions[path], p, mask)
    ensures a.result.Success? ==> a.after.subscriptions == b.subscriptions[path := a.result.value]
    ensures a.after.topics == b.topics && a.after.failing == b.failing
    ensures Valid(b) ==> Valid(a.after)
  {
    var b1 := Record(b, UpdateSubscriptionRpc, path, mask);
    if UpdateSubscriptionRpc in b.failing then Answer(Failure(Unavailable), b1)
    else if |mask| == 0 then Answer(Failure(InvalidArgument("update_mask must be non-empty")), b1)
    else if path !in b.subscriptions then Answer(Failure(NotFound(path)), b1)
    else
      var s := PatchSubscription(b.subscriptions[path], p, mask);
      Answer(Success(s), b1.(subscriptions := b.subscriptions[path := s]))
  }
}

=== FILE: controller.dfy ===
/** The Flask controller: payload checks, the call into the service, the
    reformatting of list and get results, and the choice of HTTP status. */
module Controller {
  import opened Wrappers
  import opened Text
  import opened JsonValue
  import Backend
  import Service

  /** What a view function produces: a JSON body with a status code, or an
      exception that Flask turns into its own 500 page. */
  datatype Response = Response(body: Json, code: int) | Unhandled(exception: string)

  datatype Handled = Handled(response: Response, after: Backend.State)

  const InvalidPayload: string := "Invalid payload"
  const InvalidAddFormat: string := "Invalid add_subscription format"
  const InvalidUpdateFormat: string := "Invalid update_subscription format"
  const UpdateNameRequired: string := "Subscription name is required for update"
  const Unavailable: string := "PubSub service is not available"
  const NotIndexable: string := "TypeError: argument of this type is not iterable"
  const NotSubscriptable: string := "TypeError: this value cannot be indexed by a string"
  const NoGet: string := "AttributeError: this value has no attribute 'get'"

  const AddedKey: string := "added_subscription"
  const AddErrorKey: string := "add_subscription_error"
  const UpdatedKey: string := "updated_subscription"
  const UpdateErrorKey: string := "update_subscription_error"

  function ErrorBody(message: string): Json {
    JObj(map["status" := JStr("error"), "message" := JStr(message)])
  }

  // ------------------------------------------------------------ jsonify

  function LabelsJson(labels: Backend.Labels): Json {
    LabelsToJson(labels)
  }

  /** `f"{seconds} seconds"`. */
  function SecondsText(n: nat): (r: string)
    ensures |r| > 8 && r[|r| - 8..] == " seconds"
    ensures AllDigits(r[..|r| - 8]) && DigitsValue(r[..|r| - 8]) == n
  {
    var digits := NatToDecimal(n);
    DecimalRoundTrip(n);
    var r := digits + " seconds";
    assert r[..|r| - 8] == digits;
    r
  }

  /** The subscription dict `_add_subscription` and `_update_subscription`
      return; `push_config` there is the bare endpoint. */
  function ViewJson(v: Service.SubscriptionView): (j: Json)
    ensures j.JObj? && "name" in j.fields && "topic" in j.fields && "push_config" in j.fields
    ensures "ack_deadline_seconds" in j.fields && "retain_acked_messages" in j.fields
    ensures "message_retention_duration" in j.fields && "labels" in j.fields
    ensures j.fields["name"] == JStr(v.name) && j.fields["topic"] == JStr(v.topic)
    ensures j.fields["push_config"].JStr? <==> v.pushEndpoint.Some?
    ensures v.pushEndpoint.Some? ==> j.fields["push_config"] == JStr(v.pushEndpoint.value)
    ensures v.pushEndpoint.None? ==> j.fields["push_config"] == JNull
    ensures j.fields["ack_deadline_seconds"] == JInt(v.ackDeadline)
    ensures j.fields["retain_acked_messages"] == JBool(v.retainAcked)
    ensures j.fields["message_retention_duration"] == JInt(v.retentionSeconds)
    ensures AsLabels(j.fields["labels"]) == Some(v.labels)
  {
    ViewKeysDistinct();
    JObj(map[
      "name" := JStr(v.name),
      "topic" := JStr(v.topic),
      "push_config" := (match v.pushEndpoint case Some(e) => JStr(e) case None => JNull),
      "ack_deadline_seconds" := JInt(v.ackDeadline),
      "retain_acked_messages" := JBool(v.retainAcked),
      "message_retention_duration" := JInt(v.retentionSeconds),
      "labels" := LabelsJson(v.labels)])
  }

  /** The keys of a subscription dict are pairwise different. */
  lemma ViewKeysDistinct()
    ensures "name" !in {"topic", "push_config", "ack_deadline_seconds", "retain_acked_messages", "message_retention_duration", "labels"}
    ensures "topic" !in {"push_config", "ack_deadline_seconds", "retain_acked_messages", "message_retention_duration", "labels"}
    ensures "push_config" !in {"ack_deadline_seconds", "retain_acked_messages", "message_retention_duration", "labels"}
    ensures "ack_deadline_seconds" !in {"retain_acked_messages", "message_retention_duration", "labels"}
    ensures "retain_acked_messages" !in {"message_retention_duration", "labels"}
    ensures "message_retention_duration" != "labels"
  {
    assert |"name"| == 4 && |"topic"| == 5 && |"push_config"| == 11 && |"ack_deadline_seconds"| == 20;
    assert |"retain_acked_messages"| == 21 && |"message_retention_duration"| == 26 && |"labels"| == 6;
  }

  /** Attach the outcome of one subscription step under its two keys. */
  function Attach(fields: map<string, Json>, outcome: Option<Service.Reply<Service.SubscriptionView>>,
                  okKey: string, errKey: string): (r: map<string, Json>)
    requires okKey != errKey
    ensures forall k | k in fields && k != okKey && k != errKey :: k in r && r[k] == fields[k]
    ensures okKey in r <==> okKey in fields || (outcome.Some? && outcome.value.Ok?)
    ensures errKey in r <==> errKey in fields || (outcome.Some? && !outcome.value.Ok?)
    ensures r.Keys <= fields.Keys + {okKey, errKey}
  {
    match outcome
    case None => fields
    case Some(Ok(v)) => fields[okKey := ViewJson(v)]
    case Some(Err(m)) => fields[errKey := JStr(m)]
    case Some(Raised(e)) => fields[errKey := JStr(e)]
  }

  /** The result dict of `update_pubsub_topic` on success. */
  function ReportJson(r: Service.UpdateReport): (j: Json)
    ensures j.JObj? && "status" in j.fields && "topic_path" in j.fields
    ensures j.fields["status"] == JStr("success") && j.fields["topic_path"] == JStr(r.topicPath)
    ensures (AddedKey in j.fields) <==> r.added.Some? && r.added.value.Ok?
    ensures (AddErrorKey in j.fields) <==> r.added.Some? && !r.added.value.Ok?
    ensures (UpdatedKey in j.fields) <==> r.updated.Some? && r.updated.value.Ok?
    ensures (UpdateErrorKey in j.fields) <==> r.updated.Some? && !r.updated.value.Ok?
  {
    var base := map["status" := JStr("success"), "message" := JStr(r.message), "topic_path" := JStr(r.topicPath)];
    ReportKeysDistinct();
    assert base.Keys == {"status", "message", "topic_path"};
    var withAdded := Attach(base, r.added, AddedKey, AddErrorKey);
    var withUpdated := Attach(withAdded, r.updated, UpdatedKey, UpdateErrorKey);
    JObj(withUpdated)
  }

  /** The four step keys differ from each other and from the keys every
      success dict starts with. */
  lemma ReportKeysDistinct()
    ensures AddedKey != AddErrorKey && UpdatedKey != UpdateErrorKey
    ensures {AddedKey, AddErrorKey} !! {"status", "message", "topic_path", UpdatedKey, UpdateErrorKey}
    ensures {UpdatedKey, UpdateErrorKey} !! {"status", "message", "topic_path"}
  {
    assert |AddedKey| == 18 && |AddErrorKey| == 22 && |UpdatedKey| == 20 && |UpdateErrorKey| == 25;
  }

  /** One formatted subscription of the list and get responses. */
  function SummaryJson(s: Service.SubscriptionSummary): (j: Json)
    ensures j.JObj? && "name" in j.fields && "full_name" in j.fields && "push_config" in j.fields
    ensures "ack_deadline_seconds" in j.fields && "message_retention_duration" in j.fields && "labels" in j.fields
    ensures j.fields["name"] == JStr(LastSegment(s.name)) && j.fields["full_name"] == JStr(s.name)
    ensures s.pushEndpoint.Some? ==> j.fields["push_config"] == JObj(map["push_endpoint" := JStr(s.pushEndpoint.value)])
    ensures s.pushEndpoint.None? ==> j.fields["push_config"] == JNull
    ensures j.fields["ack_deadline_seconds"] == JInt(s.ackDeadline)
    ensures j.fields["message_retention_duration"] == JStr(SecondsText(s.retentionSeconds))
    ensures AsLabels(j.fields["labels"]) == Some(s.labels)
  {
    SummaryObject(JStr(LastSegment(s.name)), JStr(s.name),
                  match s.pushEndpoint
                  case Some(e) => JObj(map["push_endpoint" := JStr(e)])
                  case None => JNull,
                  JInt(s.ackDeadline), JStr(SecondsText(s.retentionSeconds)), LabelsJson(s.labels))
  }

  /** The dict display of one formatted subscription, each key holding its own value. */
  function SummaryObject(name: Json, fullName: Json, push: Json, ack: Json, retention: Json, labels: Json): (j: Json)
    ensures j.JObj? && "name" in j.fields && "full_name" in j.fields && "push_config" in j.fields
    ensures "ack_deadline_seconds" in j.fields && "message_retention_duration" in j.fields && "labels" in j.fields
    ensures j.fields["name"] == name && j.fields["full_name"] == fullName && j.fields["push_config"] == push
    ensures j.fields["ack_deadline_seconds"] == ack && j.fields["message_retention_duration"] == retention
    ensures j.fields["labels"] == labels
  {
    SummaryFieldKeysDistinct();
    JObj(map[
      "name" := name,
      "full_name" := fullName,
      "push_config" := push,
      "ack_deadline_seconds" := ack,
      "message_retention_duration" := retention,
      "labels" := labels])
  }

  /** The keys of a formatted subscription are pairwise different. */
  lemma SummaryFieldKeysDistinct()
    ensures "name" !in {"full_name", "push_config", "ack_deadline_seconds", "message_retention_duration", "labels"}
    ensures "full_name" !in {"push_config", "ack_deadline_seconds", "message_retention_duration", "labels"}
    ensures "push_config" !in {"ack_deadline_seconds", "message_retention_duration", "labels"}
    ensures "ack_deadline_seconds" !in {"message_retention_duration", "labels"}
    ensures "message_retention_duration" != "labels"
  {
    assert |"name"| == 4 && |"full_name"| == 9 && |"push_config"| == 11 && |"ack_deadline_seconds"| == 20;
    assert |"message_retention_duration"| == 26 && |"labels"| == 6;
  }

  function SummariesJson(subs: seq<Service.SubscriptionSummary>): (j: Json)
    ensures j.JArr? && |j.items| == |subs|
    ensures forall i | 0 <= i < |subs| :: j.items[i] == SummaryJson(subs[i])
  {
    JArr(seq(|subs|, i requires 0 <= i < |subs| => SummaryJson(subs[i])))
  }

  /** One formatted topic of `list_pubsub_topics`. */
  function TopicSummaryJson(t: Service.TopicSummary): (j: Json)
    ensures j.JObj? && "name" in j.fields && "full_name" in j.fields && "labels" in j.fields && "subscriptions" in j.fields
    ensures j.fields["full_name"] == JStr(t.name) && j.fields["name"] == JStr(LastSegment(t.name))
    ensures j.fields["labels"] == LabelsJson(t.labels) && j.fields["subscriptions"] == SummariesJson(t.subscriptions)
  {
    SummaryKeysDistinct();
    Object4("name", JStr(LastSegment(t.name)), "full_name", JStr(t.name),
            "labels", LabelsJson(t.labels), "subscriptions", SummariesJson(t.subscriptions))
  }

  /** A JSON object of four different keys, each holding its own value. */
  function Object4(k1: string, v1: Json, k2: string, v2: Json, k3: string, v3: Json, k4: string, v4: Json): (j: Json)
    requires k1 != k2 && k1 != k3 && k1 != k4 && k2 != k3 && k2 != k4 && k3 != k4
    ensures j.JObj? && k1 in j.fields && k2 in j.fields && k3 in j.fields && k4 in j.fields
    ensures j.fields[k1] == v1 && j.fields[k2] == v2 && j.fields[k3] == v3 && j.fields[k4] == v4
  {
    JObj(map[k1 := v1, k2 := v2, k3 := v3, k4 := v4])
  }

  /** The four keys of a listed topic are pairwise different. */
  lemma SummaryKeysDistinct()
    ensures "name" != "full_name" && "name" != "labels" && "name" != "subscriptions"
    ensures "full_name" != "labels" && "full_name" != "subscriptions" && "labels" != "subscriptions"
  {
    assert |"name"| == 4 && |"full_name"| == 9 && |"labels"| == 6 && |"subscriptions"| == 13;
  }

  function TopicsJson(topics: seq<Service.TopicSummary>): (j: Json)
    ensures j.JArr? && |j.items| == |topics|
    ensures forall i | 0 <= i < |topics| :: j.items[i] == TopicSummaryJson(topics[i])
  {
    JArr(seq(|topics|, i requires 0 <= i < |topics| => TopicSummaryJson(topics[i])))
  }

  /** The `schema_settings` dict, or None when the settings are not shown. */
  function SchemaJson(s: Option<Backend.SchemaSettings>): (j: Json)
    ensures j.JNull? <==> s.None?
    ensures s.Some? ==>
      && j.JObj? && "schema" in j.fields && "encoding" in j.fields
      && j.fields["schema"] == JStr(s.value.schema) && j.fields["encoding"] == JInt(s.value.encoding)
  {
    match s
    case Some(settings) => JObj(map["schema" := JStr(settings.schema), "encoding" := JInt(settings.encoding)])
    case None => JNull
  }

  /** The `message_storage_policy` dict: the allowed regions, in order. */
  function StoragePolicyJson(regions: seq<string>): (j: Json)
    ensures j.JObj? && "allowed_persistence_regions" in j.fields
    ensures var listed := j.fields["allowed_persistence_regions"];
      && listed.JArr? && |listed.items| == |regions|
      && forall i | 0 <= i < |regions| :: listed.items[i] == JStr(regions[i])
  {
    JObj(map["allowed_persistence_regions" := JArr(seq(|regions|, i requires 0 <= i < |regions| => JStr(regions[i])))])
  }

  /** The formatted topic of `get_pubsub_topic`. */
  function TopicDetailJson(t: Service.TopicDetail): (j: Json)
    ensures j.JObj? && "name" in j.fields && "full_name" in j.fields && "labels" in j.fields
    ensures "kms_key_name" in j.fields && "schema_settings" in j.fields && "satisfies_pzs" in j.fields
    ensures "message_retention_duration" in j.fields && "subscriptions" in j.fields && "message_storage_policy" in j.fields
    ensures j.fields["name"] == JStr(LastSegment(t.name)) && j.fields["full_name"] == JStr(t.name)
    ensures AsLabels(j.fields["labels"]) == Some(t.labels)
    ensures j.fields["kms_key_name"] == JStr(t.kmsKeyName)
    ensures j.fields["schema_settings"].JNull? <==> t.schema.None?
    ensures j.fields["schema_settings"] == SchemaJson(t.schema)
    ensures j.fields["message_storage_policy"] == StoragePolicyJson(t.storageRegions)
    ensures j.fields["satisfies_pzs"] == JBool(t.satisfiesPzs)
    ensures j.fields["message_retention_duration"] == JStr(SecondsText(t.retentionSeconds))
    ensures j.fields["subscriptions"] == SummariesJson(t.subscriptions)
  {
    DetailObject(JStr(LastSegment(t.name)), JStr(t.name), LabelsJson(t.labels),
                 StoragePolicyJson(t.storageRegions),
                 JStr(t.kmsKeyName), SchemaJson(t.schema), JBool(t.satisfiesPzs),
                 JStr(SecondsText(t.retentionSeconds)), SummariesJson(t.subscriptions))
  }

  /** The dict display of `get_pubsub_topic`, each key holding its own value. */
  function DetailObject(name: Json, fullName: Json, labels: Json, policy: Json, kms: Json, schema: Json,
                        pzs: Json, retention: Json, subscriptions: Json): (j: Json)
    ensures j.JObj? && "name" in j.fields && "full_name" in j.fields && "labels" in j.fields
    ensures "message_storage_policy" in j.fields && "kms_key_name" in j.fields && "schema_settings" in j.fields
    ensures "satisfies_pzs" in j.fields && "message_retention_duration" in j.fields && "subscriptions" in j.fields
    ensures j.fields["name"] == name && j.fields["full_name"] == fullName && j.fields["labels"] == labels
    ensures j.fields["message_storage_policy"] == policy && j.fields["kms_key_name"] == kms
    ensures j.fields["schema_settings"] == schema && j.fields["satisfies_pzs"] == pzs
    ensures j.fields["message_retention_duration"] == retention && j.fields["subscriptions"] == subscriptions
  {
    DetailKeysDistinct();
    JObj(map[
      "name" := name,
      "full_name" := fullName,
      "labels" := labels,
      "message_storage_policy" := policy,
      "kms_key_name" := kms,
      "schema_settings" := schema,
      "satisfies_pzs" := pzs,
      "message_retention_duration" := retention,
      "subscriptions" := subscriptions])
  }

  /** The keys of a formatted topic are pairwise different. */
  lemma DetailKeysDistinct()
    ensures "name" !in {"full_name", "labels", "message_storage_policy", "kms_key_name", "schema_settings",
                        "satisfies_pzs", "message_retention_duration", "subscriptions"}
    ensures "full_name" !in {"labels", "message_storage_policy", "kms_key_name", "schema_settings",
                             "satisfies_pzs", "message_retention_duration", "subscriptions"}
    ensures "labels" !in {"message_storage_policy", "kms_key_name", "schema_settings",
                          "satisfies_pzs", "message_retention_duration", "subscriptions"}
    ensures "message_storage_policy" !in {"kms_key_name", "schema_settings", "satisfies_pzs",
                                          "message_retention_duration", "subscriptions"}
    ensures "kms_key_name" !in {"schema_settings", "satisfies_pzs", "message_retention_duration", "subscriptions"}
    ensures "schema_settings" !in {"satisfies_pzs", "message_retention_duration", "subscriptions"}
    ensures "satisfies_pzs" !in {"message_retention_duration", "subscriptions"}
    ensures "message_retention_duration" != "subscriptions"
  {
    assert |"name"| == 4 && |"full_name"| == 9 && |"labels"| == 6 && |"message_storage_policy"| == 22;
    assert |"kms_key_name"| == 12 && |"schema_settings"| == 15 && |"satisfies_pzs"| == 13;
    assert |"message_retention_duration"| == 26 && |"subscriptions"| == 13;
    assert "satisfies_pzs"[1] != "subscriptions"[1];
  }

  // ---------------------------------------------------------- handlers

  /** The service call of `create_pubsub_topic`, once both names are
      present; absent labels are passed as `{}`. */
  function CreateCall(svc: Service.Creator, b: Backend.State, fields: map<string, Json>): Service.Out<string>
    requires "project_id" in fields && "topic_name" in fields
  {
    Service.CreateTopic(svc, b, PyStr(fields["project_id"]), PyStr(fields["topic_name"]),
                        if "labels" in fields then fields["labels"] else JObj(map[]))
  }

  /** `create_pubsub_topic`: 400 for a payload without both names, 201 or 500
      after the service call. */
  function CreateTopic(svc: Service.Creator, b: Backend.State, data: Json): (h: Handled)
    ensures !Truthy(data) ==> h == Handled(Response(ErrorBody(InvalidPayload), 400), b)
    ensures data.JObj? && Truthy(data) && ("project_id" !in data.fields || "topic_name" !in data.fields) ==>
      h == Handled(Response(ErrorBody(InvalidPayload), 400), b)
    ensures h.response.Response? ==> h.response.code in {201, 400, 500}
    ensures h.response.Response? && h.response.code == 201 <==>
      && data.JObj? && "project_id" in data.fields && "topic_name" in data.fields
      && CreateCall(svc, b, data.fields).reply.Ok?
    ensures data.JObj? && "project_id" in data.fields && "topic_name" in data.fields ==>
      var o := CreateCall(svc, b, data.fields);
      var path := Service.TopicPath(PyStr(data.fields["project_id"]), PyStr(data.fields["topic_name"]));
      && h.after == o.after
      && (o.reply.Err? ==> h.response == Response(ErrorBody(o.reply.message), 500))
      && (o.reply.Raised? ==> h.response == Unhandled(o.reply.exception))
      && (o.reply.Ok? ==>
            && h.response.body.JObj? && "topic_path" in h.response.body.fields && "message" in h.response.body.fields
            && h.response.body.fields["topic_path"] == JStr(path)
            && h.response.body.fields["message"] == JStr("Topic created: " + path))
    ensures h.response.Unhandled? && data.JObj? ==> !svc.initialized
    ensures Backend.Valid(b) ==> Backend.Valid(h.after)
  {
    if !Truthy(data) then Handled(Response(ErrorBody(InvalidPayload), 400), b)
    else match (PyIn("project_id", data), PyIn("topic_name", data))
      case (None, _) => Handled(Unhandled(NotIndexable), b)
      case (Some(false), _) => Handled(Response(ErrorBody(InvalidPayload), 400), b)
      case (Some(true), None) => Handled(Unhandled(NotIndexable), b)
      case (Some(true), Some(false)) => Handled(Response(ErrorBody(InvalidPayload), 400), b)
      case (Some(true), Some(true)) =>
        match data
        case JObj(fields) =>
          var o := CreateCall(svc, b, fields);
          (match o.reply
           case Ok(path) =>
             Handled(Response(JObj(map["status" := JStr("success"), "message" := JStr("Topic created: " + path),
                                       "topic_path" := JStr(path)]), 201), o.after)
           case Err(m) => Handled(Response(ErrorBody(m), 500), o.after)
           case Raised(e) => Handled(Unhandled(e), o.after))
        case _ => Handled(Unhandled(NotSubscriptable), b)
  }

  /** `list_pubsub_topics`: 200 with each topic reduced to its short name,
      full name, labels and formatted subscriptions; 500 otherwise. */
  function ListTopics(svc: Service.Creator, b: Backend.State): (h: Handled)
    ensures h.response.Response? && h.response.code in {200, 500}
    ensures Backend.SameStore(b, h.after)
    ensures h.response.code == 200 <==> Service.ListTopics(svc, b).reply.Ok?
    ensures h.response.code == 200 ==>
      var topics := Service.ListTopics(svc, b).reply.value;
      && h.response.body.JObj? && "topics" in h.response.body.fields
      && var listed := h.response.body.fields["topics"];
      && listed.JArr? && |listed.items| == |topics|
      && forall i | 0 <= i < |topics| :: listed.items[i] == TopicSummaryJson(topics[i])
  {
    var o := Service.ListTopics(svc, b);
    match o.reply
    case Ok(topics) =>
      Handled(Response(JObj(map["status" := JStr("success"), "topics" := TopicsJson(topics)]), 200), o.after)
    case Err(m) => Handled(Response(ErrorBody(m), 500), o.after)
    case Raised(e) => Handled(Response(ErrorBody(e), 500), o.after)
  }

  /** `get_pubsub_topic`: 200, or 404 when the error mentions "not found"
      in any letter case, 500 for every other error. */
  function GetTopic(svc: Service.Creator, b: Backend.State, topicName: string): (h: Handled)
    ensures h.response.Response? && h.response.code in {200, 404, 500}
    ensures Backend.SameStore(b, h.after)
    ensures h.response.code == 200 <==> Service.GetTopic(svc, b, topicName).reply.Ok?
    ensures h.response.code == 404 <==>
      var reply := Service.GetTopic(svc, b, topicName).reply;
      reply.Err? && Contains(Lower(reply.message), "not found")
    ensures h.response.code == 200 ==>
      var t := Service.GetTopic(svc, b, topicName).reply.value;
      && h.response.body.JObj? && "topic" in h.response.body.fields
      && h.response.body.fields["topic"] == TopicDetailJson(t)
  {
    var o := Service.GetTopic(svc, b, topicName);
    match o.reply
    case Ok(t) =>
      Handled(Response(JObj(map["status" := JStr("success"), "topic" := TopicDetailJson(t)]), 200), o.after)
    case Err(m) =>
      Handled(Response(ErrorBody(m), if Contains(Lower(m), "not found") then 404 else 500), o.after)
    case Raised(e) => Handled(Response(ErrorBody(e), 500), o.after)
  }

  /** The checks `update_pubsub_topic` applies to a subscription config
      before the service runs: None when it passes, the 400 message otherwise. */
  function ConfigProblem(config: Json, badFormat: string, noName: string): (r: Option<string>)
    ensures r.None? <==> !Truthy(config) || (config.JObj? && "name" in config.fields)
    ensures r.Some? ==> r.value == (if config.JObj? then noName else badFormat)
  {
    if !Truthy(config) then None
    else if !config.JObj? then Some(badFormat)
    else if "name" !in config.fields then Some(noName)
    else None
  }

  /** The service call of `update_pubsub_topic`, once the payload passed. */
  function UpdateCall(svc: Service.Creator, b: Backend.State, fields: map<string, Json>): Service.Out<Service.UpdateReport> {
    Service.UpdateTopic(svc, b, PyStr(Get(fields, "topic_name")), Get(fields, "labels"),
                        Get(fields, "message_retention_duration"),
                        Get(fields, "add_subscription"), Get(fields, "update_subscription"))
  }

  /** How `update_pubsub_topic` answers once the service returned: 200 on
      success, 503 when the error says the service is not initialised, 400
      for every other error. */
  function UpdateResponse(reply: Service.Reply<Service.UpdateReport>): (r: Response)
    ensures r.Response? && r.code in {200, 400, 503}
    ensures r.code == 200 <==> reply.Ok?
    ensures r.code == 503 <==> reply.Err? && Contains(Lower(reply.message), "not initialized")
    ensures r.code == 503 ==> r.body == ErrorBody(Unavailable)
    ensures r.code == 400 && reply.Err? ==> r.body == ErrorBody(reply.message)
    ensures r.code == 200 ==> r.body == ReportJson(reply.value)
  {
    match reply
    case Ok(report) => Response(ReportJson(report), 200)
    case Err(m) =>
      if Contains(Lower(m), "not initialized") then Response(ErrorBody(Unavailable), 503)
      else Response(ErrorBody(m), 400)
    case Raised(e) => Response(ErrorBody(e), 400)
  }

  /** `update_pubsub_topic`: 400 for a malformed payload, then 200, 503 for
      an uninitialised service, 400 for any other service error. */
  function UpdateTopic(svc: Service.Creator, b: Backend.State, data: Json): (h: Handled)
    ensures !Truthy(data) ==> h == Handled(Response(ErrorBody(InvalidPayload), 400), b)
    ensures h.response.Response? ==> h.response.code in {200, 400, 503}
    ensures h.response.Unhandled? ==> h.after == b && Truthy(data) && !data.JObj?
    ensures data.JObj? && Truthy(data) && "topic_name" !in data.fields ==>
      h == Handled(Response(ErrorBody(InvalidPayload), 400), b)
    ensures data.JObj? && Truthy(data) && "topic_name" in data.fields ==>
      var add := ConfigProblem(Get(data.fields, "add_subscription"), InvalidAddFormat, Service.SubscriptionNameRequired);
      var upd := ConfigProblem(Get(data.fields, "update_subscription"), InvalidUpdateFormat, UpdateNameRequired);
      && (add.Some? ==> h == Handled(Response(ErrorBody(add.value), 400), b))
      && (add.None? && upd.Some? ==> h == Handled(Response(ErrorBody(upd.value), 400), b))
      && (add.None? && upd.None? ==>
            var o := UpdateCall(svc, b, data.fields);
            && h.after == o.after
            && (h.response.code == 200 <==> o.reply.Ok?)
            && (h.response.code == 503 <==> o.reply.Err? && Contains(Lower(o.reply.message), "not initialized"))
            && (h.response.code == 503 ==> h.response.body == ErrorBody(Unavailable))
            && (h.response.code == 400 ==> o.reply.Err? && h.response.body == ErrorBody(o.reply.message)))
    ensures h.response.Response? && h.response.code == 200 ==>
      h.response.body.JObj? && "status" in h.response.body.fields && h.response.body.fields["status"] == JStr("success")
    ensures Backend.Valid(b) ==> Backend.Valid(h.after)
  {
    if !Truthy(data) then Handled(Response(ErrorBody(InvalidPayload), 400), b)
    else match PyIn("topic_name", data)
      case None => Handled(Unhandled(NotIndexable), b)
      case Some(false) => Handled(Response(ErrorBody(InvalidPayload), 400), b)
      case Some(true) =>
        match data
        case JObj(fields) =>
          (match ConfigProblem(Get(fields, "add_subscription"), InvalidAddFormat, Service.SubscriptionNameRequired)
           case Some(m) => Handled(Response(ErrorBody(m), 400), b)
           case None =>
             match ConfigProblem(Get(fields, "update_subscription"), InvalidUpdateFormat, UpdateNameRequired)
             case Some(m) => Handled(Response(ErrorBody(m), 400), b)
             case None =>
               var o := UpdateCall(svc, b, fields);
               Handled(UpdateResponse(o.reply), o.after))
        case _ => Handled(Unhandled(NoGet), b)
  }
}

=== FILE: duration.dfy ===
/** The duration codec of the service (`_parse_duration`): a string of one or
    more ASCII digits followed by one unit letter, `s`, `m` or `h`, read as
    whole seconds. Building the protobuf `Duration` from the result can fail
    when the seconds do not fit its signed 64-bit field. */
module Duration {
  import opened Wrappers
  import opened Text

  datatype Unit = Second | Minute | Hour

  function UnitOf(c: char): Option<Unit> {
    if c == 's' then Some(Second)
    else if c == 'm' then Some(Minute)
    else if c == 'h' then Some(Hour)
    else None
  }

  function UnitChar(u: Unit): char {
    match u
    case Second => 's'
    case Minute => 'm'
    case Hour => 'h'
  }

  /** Seconds per unit: 1, 60, 3600. */
  function Multiplier(u: Unit): nat {
    match u
    case Second => 1
    case Minute => 60
    case Hour => 3600
  }

  /** The part of the input the pattern must cover: Python's `$` also
      matches just before a final newline, so one trailing "\n" is ignored. */
  function Subject(s: string): (r: string)
    ensures r == s || (s == r + "\n")
  {
    if |s| > 0 && s[|s| - 1] == '\n' then s[..|s| - 1] else s
  }

  /** The pattern `^(\d+)(s|m|h)$` covers t exactly. */
  ghost predicate Covers(t: string) {
    |t| >= 2 && AllDigits(t[..|t| - 1]) && UnitOf(t[|t| - 1]).Some?
  }

  /** `re.match(r"^(\d+)(s|m|h)$", s)` succeeds. */
  ghost predicate Matches(s: string) {
    Covers(Subject(s))
  }

  /** The seconds a matching string denotes. */
  ghost function Denotes(s: string): nat
    requires Matches(s)
  {
    var t := Subject(s);
    DigitsValue(t[..|t| - 1]) * Multiplier(UnitOf(t[|t| - 1]).value)
  }

  /** Left-to-right scan of a digit run, the way the regular expression
      consumes `\d+`; fails at the first non-digit. */
  function ScanDigits(s: string, acc: nat): (r: Option<nat>)
    ensures r.Some? <==> AllDigits(s)
    ensures r.Some? ==> r.value == acc * Pow10(|s|) + DigitsValue(s)
  {
    if |s| == 0 then Some(acc)
    else if !IsDigit(s[0]) then None
    else
      var r := ScanDigits(s[1..], acc * 10 + DigitValue(s[0]));
      ScanStep(s, acc, r);
      r
  }

  /** One step of the scan: the first digit moves into the accumulator. */
  lemma ScanStep(s: string, acc: nat, r: Option<nat>)
    requires |s| > 0 && IsDigit(s[0])
    requires r.Some? <==> AllDigits(s[1..])
    requires r.Some? ==> r.value == (acc * 10 + DigitValue(s[0])) * Pow10(|s| - 1) + DigitsValue(s[1..])
    ensures r.Some? <==> AllDigits(s)
    ensures r.Some? ==> r.value == acc * Pow10(|s|) + DigitsValue(s)
  {
    var c, t := s[0], s[1..];
    assert s == [c] + t;
    if AllDigits(t) {
      ShiftInto(acc, c, t);
    } else {
      var i :| 0 <= i < |t| && !IsDigit(t[i]);
      assert s[i + 1] == t[i];
    }
  }

  /** Moving the leading digit c of [c] + t into the accumulator keeps the total. */
  lemma ShiftInto(acc: nat, c: char, t: string)
    requires IsDigit(c) && AllDigits(t)
    ensures AllDigits([c] + t)
    ensures (acc * 10 + DigitValue(c)) * Pow10(|t|) + DigitsValue(t) == acc * Pow10(|t| + 1) + DigitsValue([c] + t)
  {
    DigitsValueCons(c, t);
    ShiftDigit(acc, DigitValue(c), |t|);
  }

  lemma ShiftDigit(acc: nat, d: nat, k: nat)
    ensures (acc * 10 + d) * Pow10(k) == acc * Pow10(k + 1) + d * Pow10(k)
  {
    var p := Pow10(k);
    assert Pow10(k + 1) == 10 * p;
    assert (acc * 10 + d) * p == acc * 10 * p + d * p;
  }

  /** `_parse_duration` up to the construction of the protobuf message:
      the number of seconds, or None when the text does not match. */
  function Parse(s: string): (r: Option<nat>)
    ensures r.Some? <==> Matches(s)
    ensures r.Some? ==> r.value == Denotes(s)
  {
    var t := Subject(s);
    if |t| < 2 then None
    else
      match UnitOf(t[|t| - 1])
      case None => None
      case Some(u) =>
        match ScanDigits(t[..|t| - 1], 0)
        case None => None
        case Some(n) => Some(n * Multiplier(u))
  }

  /** The canonical text for a count of units, e.g. Format(7, Hour) == "7h". */
  function Format(n: nat, u: Unit): string {
    NatToDecimal(n) + [UnitChar(u)]
  }

  /** Every formatted duration parses back to its count times the unit. */
  lemma FormatParseRoundTrip(n: nat, u: Unit)
    ensures Parse(Format(n, u)) == Some(n * Multiplier(u))
  {
    var s := Format(n, u);
    assert s[..|s| - 1] == NatToDecimal(n);
    DecimalRoundTrip(n);
  }

  /** Parse accepts exactly the strings that are a digit run plus one unit,
      and then the digit run's value times the unit's multiplier. */
  lemma ParseIffDigitsThenUnit(digits: string, c: char)
    requires c != '\n'
    ensures Parse(digits + [c]).Some? <==> |digits| > 0 && AllDigits(digits) && UnitOf(c).Some?
    ensures |digits| > 0 && AllDigits(digits) && UnitOf(c).Some? ==>
      Parse(digits + [c]) == Some(DigitsValue(digits) * Multiplier(UnitOf(c).value))
  {
    var s := digits + [c];
    assert s[..|s| - 1] == digits;
    assert s[|s| - 1] == c;
  }

  /** Leading zeros are allowed: "007m" is 420 seconds. */
  lemma LeadingZerosAllowed()
    ensures Parse("007m") == Some(420)
  {
    var digits := "007";
    assert "007m" == digits + ['m'];
    ParseIffDigitsThenUnit(digits, 'm');
    assert digits[..2] == "00";
    assert "00"[..1] == "0";
    assert "0"[..0] == "";
    assert DigitsValue(digits) == 7;
  }

  /** A day written in hours: "24h" is 86400 seconds. */
  lemma DayInHours()
    ensures Parse("24h") == Some(86400)
  {
    var digits := "24";
    assert "24h" == digits + ['h'];
    ParseIffDigitsThenUnit(digits, 'h');
    assert digits[..1] == "2";
    assert "2"[..0] == "";
    assert DigitsValue(digits) == 24;
  }

  /** The empty string, a string with no unit, a unit with no digits and any
      other unit letter are all rejected; "7d", the creation default of a
      subscription's retention, is among them. */
  lemma RejectsMissingPartsAndOtherUnits(s: string)
    requires s == "" || AllDigits(s) || (|s| == 1 && UnitOf(s[0]).Some?)
          || (|s| > 0 && UnitOf(s[|s| - 1]).None? && s[|s| - 1] != '\n')
    ensures Parse(s) == None
  {
  }

  lemma SevenDaysDoesNotParse()
    ensures Parse("7d") == None
  {
    RejectsMissingPartsAndOtherUnits("7d");
  }

  /** A sign, a decimal point, a space or any other character that is neither
      a digit nor a unit letter, anywhere in the string, makes it invalid;
      so does text after the unit. */
  lemma RejectsForeignCharacters(s: string, i: nat)
    requires i < |Subject(s)| && !IsDigit(s[i]) && UnitOf(s[i]).None?
    ensures Parse(s) == None
  {
  }

  lemma RejectsTrailingText(s: string, i: nat)
    requires i < |Subject(s)| - 1 && UnitOf(s[i]).Some?
    ensures Parse(s) == None
  {
  }

  /** One newline after the unit is tolerated, as Python's `$` allows;
      anything more is not. */
  lemma FinalNewlineTolerated(n: nat, u: Unit)
    ensures Parse(Format(n, u) + "\n") == Some(n * Multiplier(u))
    ensures Parse(Format(n, u) + "\n\n") == None
  {
    var s := Format(n, u);
    assert Subject(s + "\n") == s;
    assert Subject(s) == s;
    FormatParseRoundTrip(n, u);
    var t := Subject(s + "\n\n");
    assert t == s + "\n";
    assert t[|t| - 1] == '\n';
  }

  /** The largest value a protobuf int64 field holds. */
  const Int64Max: int := 0x7FFF_FFFF_FFFF_FFFF

  /** What `_parse_duration` does as a whole: no match (it returns None), a
      duration, or a ValueError from `Duration(seconds=…)` when the seconds do
      not fit in an int64. */
  datatype Parsed = NoMatch | Seconds(seconds: nat) | OutOfRange(seconds: nat)

  function ParseDuration(s: string): (r: Parsed)
    ensures r.NoMatch? <==> !Matches(s)
    ensures r.Seconds? <==> Matches(s) && Denotes(s) <= Int64Max
    ensures r.Seconds? ==> r.seconds == Denotes(s)
  {
    match Parse(s)
    case None => NoMatch
    case Some(n) => if n <= Int64Max then Seconds(n) else OutOfRange(n)
  }
}

=== FILE: json.dfy ===
/** JSON values as Flask hands them to the controller (`request.json`) and as
    the service receives them in place of Python dicts, together with the bits
    of Python semantics the controller and service rely on: truthiness,
    `dict.get`, the `in` operator and `str()`. `JNull` plays Python's `None`. */
module JsonValue {
  import opened Wrappers
  import opened Text

  datatype Json =
    | JNull
    | JBool(b: bool)
    | JInt(i: int)
    | JStr(s: string)
    | JArr(items: seq<Json>)
    | JObj(fields: map<string, Json>)

  /** Python truthiness: None, False, 0, "", [] and {} are false. */
  predicate Truthy(j: Json) {
    match j
    case JNull => false
    case JBool(b) => b
    case JInt(i) => i != 0
    case JStr(s) => s != ""
    case JArr(items) => |items| > 0
    case JObj(fields) => |fields| > 0
  }

  /** `d.get(key)` on a dict: None when the key is absent. */
  function Get(fields: map<string, Json>, key: string): Json {
    if key in fields then fields[key] else JNull
  }

  /** `key in data` for whatever JSON value `data` is; None when Python raises
      TypeError (`in` on a number or a boolean). */
  function PyIn(key: string, data: Json): (r: Option<bool>)
    ensures data.JObj? ==> r == Some(key in data.fields)
    ensures r.None? <==> data.JInt? || data.JBool? || data.JNull?
  {
    match data
    case JObj(fields) => Some(key in fields)
    case JArr(items) => Some(JStr(key) in items)
    case JStr(s) => Some(Contains(s, key))
    case _ => None
  }

  /** A JSON object all of whose values are strings: the only shape a protobuf
      `map<string, string>` field accepts. */
  predicate IsLabels(j: Json) {
    j.JObj? && forall k | k in j.fields :: j.fields[k].JStr?
  }

  function AsLabels(j: Json): (r: Option<map<string, string>>)
    ensures r.Some? <==> IsLabels(j)
    ensures r.Some? ==> r.value.Keys == j.fields.Keys
    ensures r.Some? ==> forall k | k in r.value :: j.fields[k] == JStr(r.value[k])
  {
    if IsLabels(j) then Some(map k | k in j.fields :: j.fields[k].s) else None
  }

  function LabelsToJson(labels: map<string, string>): (j: Json)
    ensures AsLabels(j) == Some(labels)
  {
    var j := JObj(map k | k in labels :: JStr(labels[k]));
    assert IsLabels(j);
    assert (map k | k in j.fields :: j.fields[k].s) == labels;
    j
  }

  /** One item of the iterable `dict.update` is given: it must unpack into a
      key and a value (a two-element list, or a two-character string), and a
      protobuf string map takes only strings for both. */
  function LabelPair(item: Json): (r: Option<(string, string)>)
    ensures item.JArr? ==> (r.Some? <==> |item.items| == 2 && item.items[0].JStr? && item.items[1].JStr?)
    ensures item.JArr? && r.Some? ==> r.value == (item.items[0].s, item.items[1].s)
    ensures item.JStr? ==> (r.Some? <==> |item.s| == 2)
    ensures item.JStr? && r.Some? ==> r.value == ([item.s[0]], [item.s[1]])
    ensures r.Some? ==> item.JArr? || item.JStr?
  {
    match item
    case JArr(xs) => if |xs| == 2 && xs[0].JStr? && xs[1].JStr? then Some((xs[0].s, xs[1].s)) else None
    case JStr(s) => if |s| == 2 then Some(([s[0]], [s[1]])) else None
    case _ => None
  }

  /** Every item unpacks into a string pair. */
  predicate AllPairs(items: seq<Json>) {
    forall i | 0 <= i < |items| :: LabelPair(items[i]).Some?
  }

  /** Item i sets key k to v, and no later item sets k again. */
  ghost predicate LastSets(items: seq<Json>, k: string, v: string) {
    exists i | 0 <= i < |items| ::
      && LabelPair(items[i]) == Some((k, v))
      && forall j | i < j < |items| :: LabelPair(items[j]).Some? ==> LabelPair(items[j]).value.0 != k
  }

  /** `update` with an iterable of pairs, applied to an empty map: it fails on
      the first item that is not a pair of strings; otherwise every key gets
      the value of the last pair that names it. */
  function ApplyPairs(items: seq<Json>): (r: Option<map<string, string>>)
    ensures r.Some? <==> AllPairs(items)
    ensures r.Some? ==> forall k | k in r.value :: LastSets(items, k, r.value[k])
    ensures r.Some? ==> forall i | 0 <= i < |items| :: LabelPair(items[i]).Some? && LabelPair(items[i]).value.0 in r.value
  {
    if |items| == 0 then Some(map[])
    else
      var init, last := items[..|items| - 1], items[|items| - 1];
      var prefix := ApplyPairs(init);
      PrefixPairs(items);
      match prefix
      case None => None
      case Some(m) =>
        match LabelPair(last)
        case None => None
        case Some(kv) =>
          var r := m[kv.0 := kv.1];
          ExtendLastSets(items, init, m, kv, r);
          Some(r)
  }

  lemma PrefixPairs(items: seq<Json>)
    requires |items| > 0
    ensures AllPairs(items) <==> AllPairs(items[..|items| - 1]) && LabelPair(items[|items| - 1]).Some?
  {
    var init := items[..|items| - 1];
    assert forall i | 0 <= i < |init| :: init[i] == items[i];
  }

  /** The step of ApplyPairs: the last pair wins for its own key, and every
      other key keeps the last pair that set it before. */
  lemma ExtendLastSets(items: seq<Json>, init: seq<Json>, m: map<string, string>, kv: (string, string),
                       r: map<string, string>)
    requires |items| > 0 && init == items[..|items| - 1] && LabelPair(items[|items| - 1]) == Some(kv)
    requires r == m[kv.0 := kv.1]
    requires forall k | k in m :: LastSets(init, k, m[k])
    requires forall i | 0 <= i < |init| :: LabelPair(init[i]).Some? && LabelPair(init[i]).value.0 in m
    ensures forall k | k in r :: LastSets(items, k, r[k])
    ensures forall i | 0 <= i < |items| :: LabelPair(items[i]).Some? && LabelPair(items[i]).value.0 in r
  {
    assert forall i | 0 <= i < |init| :: init[i] == items[i];
    forall k | k in r ensures LastSets(items, k, r[k]) {
      if k == kv.0 {
        assert LabelPair(items[|items| - 1]) == Some((k, r[k]));
      } else {
        KeepLastSets(items, init, k, m[k], kv);
      }
    }
  }

  /** A pair for another key does not disturb the last pair that set k. */
  lemma KeepLastSets(items: seq<Json>, init: seq<Json>, k: string, v: string, kv: (string, string))
    requires |items| > 0 && init == items[..|items| - 1] && LabelPair(items[|items| - 1]) == Some(kv)
    requires k != kv.0 && LastSets(init, k, v)
    ensures LastSets(items, k, v)
  {
    var i :| 0 <= i < |init| && LabelPair(init[i]) == Some((k, v))
      && forall j | i < j < |init| :: LabelPair(init[j]).Some? ==> LabelPair(init[j]).value.0 != k;
    assert init[i] == items[i];
    forall j | i < j < |items| ensures LabelPair(items[j]).Some? ==> LabelPair(items[j]).value.0 != k {
      if j < |init| {
        assert init[j] == items[j];
      }
    }
  }

  /** `labels.update(value)` on an empty protobuf label map, the way
      `MutableMapping.update` treats its argument: a mapping contributes its
      items, any other iterable its pairs; None, numbers and booleans are not
      iterable. An empty list or string changes nothing. */
  function LabelsUpdate(j: Json): (r: Option<map<string, string>>)
    ensures j.JObj? ==> r == AsLabels(j)
    ensures j.JArr? ==> r == ApplyPairs(j.items)
    ensures j.JStr? ==> (r.Some? <==> j.s == "") && (r.Some? ==> r.value == map[])
    ensures j.JNull? || j.JInt? || j.JBool? ==> r.None?
  {
    match j
    case JObj(_) => AsLabels(j)
    case JArr(items) => ApplyPairs(items)
    case JStr(s) =>
      // Each character of a non-empty string is an item that does not
      // unpack into two values.
      if s == "" then Some(map[]) else None
    case _ => None
  }

  /** Python's `str(value)` as an f-string renders it. Scalars follow Python
      exactly; lists and dicts are rendered by a fixed placeholder. */
  function PyStr(j: Json): string {
    match j
    case JNull => "None"
    case JBool(b) => if b then "True" else "False"
    case JInt(i) => IntToDecimal(i)
    case JStr(s) => s
    case JArr(_) => "[...]"
    case JObj(_) => "{...}"
  }
}

=== FILE: properties.dfy ===
/** Properties that relate several operations of the service and the
    controller: what a later read observes after a write, idempotence of the
    topic update, and the status codes of the error paths end to end. */
module Properties {
  import opened Wrappers
  import opened Text
  import opened JsonValue
  import Duration
  import Backend
  import Requests
  import Service
  import Controller

  // --------------------------------------------------------- short names

  /** The controller's short name of a topic is the name it was created under. */
  lemma ShortNameOfTopicPath(project: string, name: string)
    requires '/' !in name
    ensures LastSegment(Service.TopicPath(project, name)) == name
  {
    var prefix := "projects/" + project + "/topics/";
    assert prefix[|prefix| - 1] == '/';
    LastSegmentOfSuffix(prefix, name);
  }

  lemma ShortNameOfSubscriptionPath(project: string, name: string)
    requires '/' !in name
    ensures LastSegment(Service.SubscriptionPath(project, name)) == name
  {
    var prefix := "projects/" + project + "/subscriptions/";
    assert prefix[|prefix| - 1] == '/';
    LastSegmentOfSuffix(prefix, name);
  }

  // ------------------------------------------------- write, then read

  /** A topic that was just created reads back with the labels it was given
      and no retention of its own. */
  lemma CreateThenGet(svc: Service.Creator, b: Backend.State, name: string, labels: Json)
    requires IsLabels(labels) && Backend.GetTopicRpc !in b.failing
    requires Service.CreateTopic(svc, b, svc.projectId, name, labels).reply.Ok?
    ensures
      var created := Service.CreateTopic(svc, b, svc.projectId, name, labels);
      var got := Service.GetTopic(svc, created.after, name).reply;
      && got.Ok?
      && got.value.name == Service.TopicPath(svc.projectId, name)
      && got.value.labels == AsLabels(labels).value
      && got.value.retentionSeconds == 0
  {
    assert !Truthy(labels) ==> AsLabels(labels).value == map[];
  }

  /** An update of the retention alone is what a later get reports, in
      seconds, whatever unit the request used. */
  lemma UpdateRetentionThenGet(svc: Service.Creator, b: Backend.State, name: string, s: string)
    requires svc.initialized && Duration.Matches(s) && Duration.Denotes(s) <= Duration.Int64Max
    requires Service.TopicPath(svc.projectId, name) in b.topics
    requires Backend.UpdateTopicRpc !in b.failing && Backend.GetTopicRpc !in b.failing
    ensures
      var updated := Service.UpdateTopic(svc, b, name, JNull, JStr(s), JNull, JNull);
      var got := Service.GetTopic(svc, updated.after, name).reply;
      && updated.reply.Ok? && got.Ok?
      && got.value.retentionSeconds == Service.ReportedSeconds(Duration.Denotes(s))
      && (Duration.Denotes(s) < Service.SecondsPerDay ==> got.value.retentionSeconds == Duration.Denotes(s))
  {
    var u := Requests.TopicRequest(JNull, JStr(s));
    assert u.Success?;
    assert Requests.RetentionField in u.value.mask;
  }

  /** An update to a retention of "24h" stores a whole day, 86400 seconds. */
  lemma DayLongRetentionIsStored(svc: Service.Creator, b: Backend.State, name: string)
    requires svc.initialized && Service.TopicPath(svc.projectId, name) in b.topics
    requires Backend.UpdateTopicRpc !in b.failing
    ensures
      var updated := Service.UpdateTopic(svc, b, name, JNull, JStr("24h"), JNull, JNull);
      var path := Service.TopicPath(svc.projectId, name);
      && updated.reply.Ok? && path in updated.after.topics
      && updated.after.topics[path].retention == Some(86400)
  {
    Duration.DayInHours();
    var u := Requests.TopicRequest(JNull, JStr("24h"));
    assert u.Success? && u.value.patch.retention == 86400;
    assert Requests.RetentionField in u.value.mask;
  }

  /** A topic that keeps a whole day of messages is reported with a
      retention of 0: the timedelta's `seconds` leaves out the day. Its total
      length gives back the 86400. */
  lemma DayLongRetentionReadsAsZero(svc: Service.Creator, b: Backend.State, name: string)
    requires svc.initialized && Backend.GetTopicRpc !in b.failing
    requires Service.TopicPath(svc.projectId, name) in b.topics
    requires b.topics[Service.TopicPath(svc.projectId, name)].retention == Some(86400)
    ensures Service.GetTopic(svc, b, name).reply.Ok?
    ensures Service.GetTopic(svc, b, name).reply.value.retentionSeconds == 0
    ensures Service.IntendedSeconds(b.topics[Service.TopicPath(svc.projectId, name)].retention.value) == 86400
  {
    assert Service.ReportedSeconds(86400) == Service.AsTimeDelta(86400).seconds == 0;
  }

  /** A subscription created without a retention keeps the backend's seven
      days, and the service reports it as 0 seconds. */
  lemma DefaultRetentionReadsAsZero(svc: Service.Creator, b: Backend.State, topicPath: string, config: map<string, Json>)
    requires Requests.RetentionField !in config
    requires Service.AddSubscription(svc, b, topicPath, JObj(config)).reply.Ok?
    ensures Service.AddSubscription(svc, b, topicPath, JObj(config)).reply.value.retentionSeconds == 0
    ensures Service.IntendedSeconds(Backend.DefaultRetention) == 7 * Service.SecondsPerDay
  {
    assert Service.ReportedSeconds(Backend.DefaultRetention) == Service.AsTimeDelta(604800).seconds == 0;
  }

  /** A topic that was just created is in the next listing of its project,
      under its full path and with the labels it was given. */
  lemma CreateThenList(svc: Service.Creator, b: Backend.State, name: string, labels: Json)
    requires Backend.Valid(b) && IsLabels(labels) && Backend.ListTopicsRpc !in b.failing
    requires Service.CreateTopic(svc, b, svc.projectId, name, labels).reply.Ok?
    ensures
      var created := Service.CreateTopic(svc, b, svc.projectId, name, labels);
      var listed := Service.ListTopics(svc, created.after).reply;
      && listed.Ok?
      && exists i | 0 <= i < |listed.value| ::
           listed.value[i].name == Service.TopicPath(svc.projectId, name)
           && listed.value[i].labels == AsLabels(labels).value
  {
    assert !Truthy(labels) ==> AsLabels(labels).value == map[];
    var created := Service.CreateTopic(svc, b, svc.projectId, name, labels);
    var after := created.after;
    var path := Service.TopicPath(svc.projectId, name);
    var prefix := Service.ProjectPath(svc.projectId) + "/topics/";
    assert path == prefix + name;
    assert path in after.topicOrder;
    var j :| 0 <= j < |after.topicOrder| && after.topicOrder[j] == path;
    Backend.TopicsUnderMembers(after.topics, after.topicOrder, prefix, after.topics[path]);
    var all := Backend.TopicsUnder(after.topics, after.topicOrder, prefix);
    var i :| 0 <= i < |all| && all[i] == after.topics[path];
    assert after.topics[path].name == path;
  }

  /** Repeating a successful topic update leaves the topics as the first
      update left them, and succeeds again. */
  lemma UpdateTopicIdempotent(svc: Service.Creator, b: Backend.State, name: string, labels: Json,
                              retention: Json, addSubscription: Json, updateSubscription: Json)
    requires Service.UpdateTopic(svc, b, name, labels, retention, addSubscription, updateSubscription).reply.Ok?
    ensures
      var first := Service.UpdateTopic(svc, b, name, labels, retention, addSubscription, updateSubscription);
      var second := Service.UpdateTopic(svc, first.after, name, labels, retention, addSubscription, updateSubscription);
      second.reply.Ok? && second.after.topics == first.after.topics
  {
    var first := Service.UpdateTopic(svc, b, name, labels, retention, addSubscription, updateSubscription);
    var path := Service.TopicPath(svc.projectId, name);
    var u := Requests.TopicRequest(labels, retention).value;
    if |u.mask| > 0 {
      var once := Backend.PatchTopic(b.topics[path], u.patch, u.mask);
      assert first.after.topics == b.topics[path := once];
      assert Backend.PatchTopic(once, u.patch, u.mask) == once;
    }
  }

  // ------------------------------------------------ status codes, end to end

  /** Getting a topic the backend does not have answers 404: the backend's
      message says "not found". */
  lemma MissingTopicIs404(svc: Service.Creator, b: Backend.State, name: string)
    requires svc.initialized && Backend.GetTopicRpc !in b.failing
    requires Service.TopicPath(svc.projectId, name) !in b.topics
    ensures Controller.GetTopic(svc, b, name).response.code == 404
  {
    var path := Service.TopicPath(svc.projectId, name);
    assert Service.GetTopic(svc, b, name).reply == Service.Err("Failed to get topic: " + Backend.ErrorText(Backend.NotFound(path)));
    NotFoundIsNamed(path);
  }

  /** The get error for a missing topic says "not found" once lower-cased. */
  lemma NotFoundIsNamed(path: string)
    ensures Contains(Lower("Failed to get topic: " + Backend.ErrorText(Backend.NotFound(path))), "not found")
  {
    var prefix, code := "Failed to get topic: ", "404 Resource ";
    var after := " (resource=" + path + ").";
    assert Backend.ErrorText(Backend.NotFound(path)) == code + "not found" + after;
    assert prefix + (code + "not found" + after) == (prefix + code) + "not found" + after;
    LowerKeepsInfix(prefix + code, "not found", after);
  }

  /** A deleted topic is gone for the controller too. */
  lemma DeleteThenGetIs404(svc: Service.Creator, b: Backend.State, name: string)
    requires Backend.GetTopicRpc !in b.failing
    requires Service.DeleteTopic(svc, b, name).reply.Ok?
    ensures Controller.GetTopic(svc, Service.DeleteTopic(svc, b, name).after, name).response.code == 404
  {
    MissingTopicIs404(svc, Service.DeleteTopic(svc, b, name).after, name);
  }

  /** An uninitialised service is a server error for get, not a 404: its
      message has no "f", so it cannot contain "not found". */
  lemma UninitializedGetIs500(svc: Service.Creator, b: Backend.State, name: string)
    requires !svc.initialized
    ensures Controller.GetTopic(svc, b, name).response.code == 500
  {
    var m := Service.NotInitialized;
    assert 'f' !in m && 'F' !in m;
    LowerMissesLetter(m, 'f');
    ContainsNeedsChar(Lower(m), "not found", 'f');
  }

  /** An uninitialised service makes a well-formed update answer 503. */
  lemma UninitializedUpdateIs503(svc: Service.Creator, b: Backend.State, data: Json)
    requires !svc.initialized && data.JObj? && "topic_name" in data.fields
    requires Controller.ConfigProblem(Get(data.fields, "add_subscription"), Controller.InvalidAddFormat, Service.SubscriptionNameRequired).None?
    requires Controller.ConfigProblem(Get(data.fields, "update_subscription"), Controller.InvalidUpdateFormat, Controller.UpdateNameRequired).None?
    ensures
      var h := Controller.UpdateTopic(svc, b, data);
      h.after == b && h.response.Response? && h.response.code == 503
  {
    assert |data.fields| > 0;
    var m := Service.NotInitialized;
    assert m == "PubSub service " + "not initialized" + "";
    LowerKeepsInfix("PubSub service ", "not initialized", "");
    assert Controller.UpdateCall(svc, b, data.fields) == Service.Out(Service.Err(m), b);
  }

  /** The service refuses a retention that does not parse before any RPC. */
  lemma InvalidRetentionRefused(svc: Service.Creator, b: Backend.State, fields: map<string, Json>, s: string)
    requires svc.initialized && !Duration.Matches(s)
    requires Requests.LabelsArgOk(Get(fields, "labels")) && Get(fields, "message_retention_duration") == JStr(s)
    ensures Controller.UpdateCall(svc, b, fields) == Service.Out(Service.Err(Requests.InvalidRetentionFormat), b)
  {
  }

  /** The refusal mentions nothing about initialisation, so it is not a 503. */
  lemma InvalidRetentionIsNot503()
    ensures !Contains(Lower(Requests.InvalidRetentionFormat), "not initialized")
  {
    var m := Requests.InvalidRetentionFormat;
    assert 'z' !in m && 'Z' !in m;
    LowerMissesLetter(m, 'z');
    ContainsNeedsChar(Lower(m), "not initialized", 'z');
  }

  /** A retention that does not parse is a 400 and no backend call at all. */
  lemma InvalidRetentionIs400(svc: Service.Creator, b: Backend.State, name: Json, s: string)
    requires svc.initialized && !Duration.Matches(s)
    ensures
      var data := JObj(map["topic_name" := name, "message_retention_duration" := JStr(s)]);
      var h := Controller.UpdateTopic(svc, b, data);
      && h.after == b && h.response.Response? && h.response.code == 400
      && h.response.body == Controller.ErrorBody(Requests.InvalidRetentionFormat)
  {
    var data := JObj(map["topic_name" := name, "message_retention_duration" := JStr(s)]);
    assert "topic_name" in data.fields && "labels" !in data.fields;
    InvalidRetentionRefused(svc, b, data.fields, s);
    InvalidRetentionIsNot503();
  }

  /** An update naming only the topic succeeds without calling the backend. */
  lemma EmptyUpdateMakesNoCall(svc: Service.Creator, b: Backend.State, name: Json)
    requires svc.initialized
    ensures
      var h := Controller.UpdateTopic(svc, b, JObj(map["topic_name" := name]));
      h.after == b && h.response.Response? && h.response.code == 200
  {
    var data := JObj(map["topic_name" := name]);
    assert "topic_name" in data.fields;
    var u := Requests.TopicRequest(JNull, JNull);
    assert u.Success?;
  }

  // ------------------------------------------------------- subscriptions

  /** A subscription update naming only the subscription still reaches the
      backend, with an empty mask, and the backend refuses it. */
  lemma NameOnlySubscriptionUpdateIsRefused(svc: Service.Creator, b: Backend.State, topicPath: string, name: Json)
    requires Truthy(name)
    ensures
      var o := Service.UpdateSubscription(svc, b, topicPath, JObj(map["name" := name]));
      && o.reply.Err?
      && o.after.log == b.log + [Backend.Call(Backend.UpdateSubscriptionRpc, Service.SubscriptionPath(svc.projectId, PyStr(name)), [])]
  {
    var config := map["name" := name];
    forall f | f in Requests.SubscriptionFields ensures Requests.ConfigKey(f) !in config {
    }
    Requests.NoKeysNoMask(config);
  }

  /** A successful subscription update reports the acknowledgement deadline
      its configuration asked for; a requested 0 reaches the backend as
      unset, which then applies its default. */
  lemma UpdateSubscriptionSetsAckDeadline(svc: Service.Creator, b: Backend.State, topicPath: string,
                                          config: map<string, Json>, k: int)
    requires Requests.AckDeadlineField in config && config[Requests.AckDeadlineField] == JInt(k)
    requires Service.UpdateSubscription(svc, b, topicPath, JObj(config)).reply.Ok?
    ensures Service.UpdateSubscription(svc, b, topicPath, JObj(config)).reply.value.ackDeadline ==
      (if k != 0 then k else Backend.DefaultAckDeadline)
  {
    var u := Requests.SubscriptionRequest(config).value;
    Requests.SelectMembers(Requests.SubscriptionFields, f => Requests.Wanted(config, f));
    assert Requests.AckDeadlineField in u.mask;
    assert Requests.Carries(u.patch, config, Requests.AckDeadlineField);
  }

  /** An integer for the retain-acked flag is no error: protobuf's bool field
      takes it for its truth value, so the update is sent with that field
      alone in its mask, and a success reports the flag the integer stands for. */
  lemma IntRetainFlagIsSent(svc: Service.Creator, b: Backend.State, topicPath: string, name: Json, i: int)
    requires Truthy(name)
    ensures
      var o := Service.UpdateSubscription(svc, b, topicPath, JObj(map["name" := name, Requests.RetainAckedField := JInt(i)]));
      && o.after.log == b.log + [Backend.Call(Backend.UpdateSubscriptionRpc,
                                              Service.SubscriptionPath(svc.projectId, PyStr(name)),
                                              [Requests.RetainAckedField])]
      && (o.reply.Ok? ==> o.reply.value.retainAcked == (i != 0))
  {
    var config := map["name" := name, Requests.RetainAckedField := JInt(i)];
    IntRetainFlagRequest(config, i);
    assert Get(config, "name") == name;
  }

  /** The request of that update: the retain-acked field alone, set to the
      integer's truth value. */
  lemma IntRetainFlagRequest(config: map<string, Json>, i: int)
    requires config.Keys == {"name", Requests.RetainAckedField} && config[Requests.RetainAckedField] == JInt(i)
    ensures Requests.SubscriptionRequest(config).Success?
    ensures Requests.SubscriptionRequest(config).value.mask == [Requests.RetainAckedField]
    ensures Requests.SubscriptionRequest(config).value.patch.retainAcked == (i != 0)
  {
    var w := f => Requests.Wanted(config, f);
    var fields := Requests.SubscriptionFields;
    assert !w(fields[0]) && w(fields[1]) && !w(fields[2]) && !w(fields[3]) && !w(fields[4]);
    var rest := fields[2..];
    assert rest == [fields[2], fields[3], fields[4]];
    Requests.SelectNone(rest, w);
    assert fields[1..][1..] == rest;
    assert Requests.Select(fields, w) == [Requests.RetainAckedField];
    forall f | f in fields ensures Requests.FieldOk(config, f) {
    }
    var u := Requests.SubscriptionRequest(config).value;
    assert Requests.Carries(u.patch, config, Requests.RetainAckedField);
  }

  /** A subscription just added is listed for its topic, after the ones
      listed before, with what the add reported. */
  lemma AddThenListSubscriptions(svc: Service.Creator, b: Backend.State, topicPath: string, config: map<string, Json>)
    requires Backend.Valid(b)
    requires Backend.ListTopicSubscriptionsRpc !in b.failing && Backend.GetSubscriptionRpc !in b.failing
    requires Service.AddSubscription(svc, b, topicPath, JObj(config)).reply.Ok?
    ensures
      var o := Service.AddSubscription(svc, b, topicPath, JObj(config));
      var before := Service.ListTopicSubscriptions(b, topicPath).reply.value;
      var after := Service.ListTopicSubscriptions(o.after, topicPath).reply.value;
      && |after| == |before| + 1
      && after[..|before|] == before
      && after[|before|] == Service.SubscriptionSummary(o.reply.value.name, o.reply.value.pushEndpoint,
                                                        o.reply.value.ackDeadline, o.reply.value.retentionSeconds,
                                                        o.reply.value.labels)
  {
    var o := Service.AddSubscription(svc, b, topicPath, JObj(config));
    var path := Service.SubscriptionPath(svc.projectId, PyStr(Get(config, "name")));
    var req := Requests.NewSubscriptionRequest(path, topicPath, config).value;
    ListAfterStoring(b, o.after, topicPath, path, Backend.Created(req));
  }

  /** The listing of a topic after one more of its subscriptions is stored
      at the end of the order. */
  lemma ListAfterStoring(b: Backend.State, b': Backend.State, topicPath: string, path: string, s: Backend.Subscription)
    requires Backend.Valid(b) && Backend.Valid(b') && path !in b.subscriptions && s.topic == topicPath
    requires b'.subscriptions == b.subscriptions[path := s] && b'.subscriptionOrder == b.subscriptionOrder + [path]
    requires b'.failing == b.failing
    requires Backend.ListTopicSubscriptionsRpc !in b.failing && Backend.GetSubscriptionRpc !in b.failing
    ensures
      var before := Service.ListTopicSubscriptions(b, topicPath).reply.value;
      var after := Service.ListTopicSubscriptions(b', topicPath).reply.value;
      && |after| == |before| + 1
      && after[..|before|] == before
      && after[|before|] == Service.SummaryOf(s)
  {
    Backend.SubscriptionsOfAppend(b.subscriptions, b.subscriptionOrder, topicPath, path, s);
    var attached := Backend.SubscriptionsOf(b.subscriptions, b.subscriptionOrder, topicPath);
    var before := Service.ListTopicSubscriptions(b, topicPath).reply.value;
    var after := Service.ListTopicSubscriptions(b', topicPath).reply.value;
    assert |after| == |attached| + 1;
    forall i | 0 <= i < |before| ensures after[i] == before[i] {
      assert (attached + [path])[i] == attached[i];
    }
    assert (attached + [path])[|attached|] == path;
  }

  /** A boolean for the ack deadline of a new subscription is no error:
      protobuf's int32 field takes it as 0 or 1, so true asks for 1 second
      and false asks for 0, which the backend reads as unset and replaces by
      its default. */
  lemma BoolAckDeadlineIsAccepted(svc: Service.Creator, b: Backend.State, topicPath: string, path: string,
                                  config: map<string, Json>, flag: bool)
    requires Requests.AckDeadlineField in config && config[Requests.AckDeadlineField] == JBool(flag)
    ensures Requests.NewSubscriptionRequest(path, topicPath, config).Success? ==>
      Requests.NewSubscriptionRequest(path, topicPath, config).value.ackDeadline == Some(if flag then 1 else 0)
    ensures Service.AddSubscription(svc, b, topicPath, JObj(config)).reply.Ok? ==>
      Service.AddSubscription(svc, b, topicPath, JObj(config)).reply.value.ackDeadline ==
        (if flag then 1 else Backend.DefaultAckDeadline)
  {
  }
}

=== FILE: requests.dfy ===
/** The requests the service builds before it calls the backend: the topic
    update (patch plus field mask), the subscription update (patch plus field
    mask) and the create-subscription request with its defaults. Each builder
    also reports the errors Python raises while the request is being put
    together, before any RPC is sent. */
module Requests {
  import opened Wrappers
  import opened Text
  import opened JsonValue
  import Duration
  import Backend

  const LabelsField: string := "labels"
  const RetentionField: string := "message_retention_duration"
  const AckDeadlineField: string := "ack_deadline_seconds"
  const RetainAckedField: string := "retain_acked_messages"
  const PushConfigField: string := "push_config"
  const PushEndpointKey: string := "push_endpoint"

  /** The order in which the subscription update inspects its fields. */
  const SubscriptionFields: seq<string> :=
    [AckDeadlineField, RetainAckedField, RetentionField, LabelsField, PushConfigField]

  /** The configuration key each subscription mask identifier comes from. */
  function ConfigKey(field: string): string {
    if field == PushConfigField then PushEndpointKey else field
  }

  /** The members of `order` that `wanted` picks, in the same order. */
  function Select(order: seq<string>, wanted: string -> bool): (r: seq<string>)
    ensures |r| <= |order|
  {
    if |order| == 0 then []
    else (if wanted(order[0]) then [order[0]] else []) + Select(order[1..], wanted)
  }

  /** Select keeps exactly the wanted members of `order`. */
  lemma {:induction false} SelectMembers(order: seq<string>, wanted: string -> bool)
    ensures forall f :: f in Select(order, wanted) <==> f in order && wanted(f)
  {
    if |order| > 0 {
      SelectMembers(order[1..], wanted);
      assert forall f :: f in order <==> f == order[0] || f in order[1..];
    }
  }

  /** Select keeps nothing when nothing is wanted. */
  lemma {:induction false} SelectNone(order: seq<string>, wanted: string -> bool)
    requires forall i | 0 <= i < |order| :: !wanted(order[i])
    ensures Select(order, wanted) == []
  {
    if |order| > 0 {
      SelectNone(order[1..], wanted);
    }
  }

  const InvalidRetentionFormat: string := "Invalid message_retention_duration format"
  const TopicFailure: string := "Failed to update topic: "
  const SubscriptionUpdateFailure: string := "Failed to update subscription: "
  const SubscriptionAddFailure: string := "Failed to add subscription: "

  /** Stand-ins for the texts of the TypeError and ValueError Python raises. */
  const NotStringOrBytes: string := "expected string or bytes-like object"

  function WrongType(field: string): string {
    "invalid value for field " + field
  }

  function OutOfRangeText(n: nat): string {
    "Value out of range: " + NatToDecimal(n)
  }

  // ---------------------------------------------------------------- topic

  datatype TopicUpdate = TopicUpdate(patch: Backend.TopicPatch, mask: seq<string>)

  /** The labels argument is None, or a value `labels.update` accepts. */
  predicate LabelsArgOk(labels: Json) {
    labels.JNull? || LabelsUpdate(labels).Some?
  }

  /** The retention argument is None or a duration string that parses and fits an int64. */
  predicate RetentionArgOk(retention: Json) {
    retention.JNull? || (retention.JStr? && Duration.ParseDuration(retention.s).Seconds?)
  }

  /** The topic update of `update_pubsub_topic`: labels first, then the
      retention, each appended to the mask when its argument is not None.
      A retention string that does not parse is an error, not an omission. */
  function TopicRequest(labels: Json, retention: Json): (r: Result<TopicUpdate, string>)
    ensures r.Success? <==> LabelsArgOk(labels) && RetentionArgOk(retention)
    ensures r.Success? ==>
      forall f :: f in r.value.mask <==>
        (f == LabelsField && !labels.JNull?) || (f == RetentionField && !retention.JNull?)
    ensures r.Success? ==> Backend.NoDuplicates(r.value.mask)
    ensures r.Success? && !labels.JNull? ==> |r.value.mask| > 0 && r.value.mask[0] == LabelsField
    ensures r.Success? && !labels.JNull? ==> r.value.patch.labels == LabelsUpdate(labels).value
    ensures r.Success? && !retention.JNull? ==>
      r.value.patch.retention == Duration.Denotes(retention.s)
    ensures r.Failure? && LabelsArgOk(labels) && retention.JStr? && !Duration.Matches(retention.s) ==>
      r.error == InvalidRetentionFormat
    ensures r.Failure? ==> r.error == InvalidRetentionFormat || TopicFailure <= r.error
  {
    var u0 := TopicUpdate(Backend.TopicPatch(map[], 0), []);
    var u1 :- if labels.JNull? then Success(u0)
      else match LabelsUpdate(labels)
        case None => Failure(TopicFailure + WrongType(LabelsField))
        case Some(l) => Success(TopicUpdate(u0.patch.(labels := l), u0.mask + [LabelsField]));
    if retention.JNull? then Success(u1)
    else match retention
      case JStr(s) =>
        (match Duration.ParseDuration(s)
         case NoMatch => Failure(InvalidRetentionFormat)
         case OutOfRange(n) => Failure(TopicFailure + OutOfRangeText(n))
         case Seconds(n) => Success(TopicUpdate(u1.patch.(retention := n), u1.mask + [RetentionField])))
      case _ => Failure(TopicFailure + NotStringOrBytes)
  }

  /** An empty list or string as labels is no error: the mask still names
      "labels", and the patch carries no labels, so the update clears them. */
  lemma EmptyLabelsClearTopicLabels(labels: Json)
    requires labels == JArr([]) || labels == JStr("")
    ensures TopicRequest(labels, JNull).Success?
    ensures TopicRequest(labels, JNull).value.mask == [LabelsField]
    ensures TopicRequest(labels, JNull).value.patch.labels == map[]
  {
    assert LabelsUpdate(labels) == Some(map[]);
  }

  // --------------------------------------------------------- subscription

  datatype SubscriptionUpdate = SubscriptionUpdate(patch: Backend.SubscriptionPatch, mask: seq<string>)

  /** What protobuf's int32 field checker takes: any value with `__index__`,
      so an int, or a bool as 0 or 1. */
  function IntOf(j: Json): (r: Option<int>)
    ensures r.Some? <==> j.JInt? || j.JBool?
    ensures j.JInt? ==> r == Some(j.i)
    ensures j.JBool? ==> r == Some(if j.b then 1 else 0)
  {
    match j
    case JInt(i) => Some(i)
    case JBool(b) => Some(if b then 1 else 0)
    case _ => None
  }

  /** What protobuf's bool field checker takes: a bool, or an int, which
      stands for its truth value. */
  function BoolOf(j: Json): (r: Option<bool>)
    ensures r.Some? <==> j.JBool? || j.JInt?
    ensures j.JBool? ==> r == Some(j.b)
    ensures j.JInt? ==> r == Some(j.i != 0)
  {
    match j
    case JBool(b) => Some(b)
    case JInt(i) => Some(i != 0)
    case _ => None
  }

  /** Assigning a JSON value to a message field: None clears the field to its
      zero value; any other value goes through the field's checker, and one
      the checker refuses raises. */
  function IntValue(j: Json): Option<int> {
    if j.JNull? then Some(0) else IntOf(j)
  }

  function BoolValue(j: Json): Option<bool> {
    if j.JNull? then Some(false) else BoolOf(j)
  }

  function StringValue(j: Json): Option<string> {
    match j
    case JStr(s) => Some(s)
    case JNull => Some("")
    case _ => None
  }

  /** Whether the update takes `field` into its mask: its key is present,
      and for the retention the string also parses. */
  ghost predicate Wanted(config: map<string, Json>, field: string) {
    && ConfigKey(field) in config
    && (field == RetentionField ==>
          config[RetentionField].JStr? && Duration.Matches(config[RetentionField].s))
  }

  /** The value under the field's key, if present, is one the field accepts.
      A retention string that does not match is fine (it is dropped); one
      that overflows an int64 is not. */
  predicate FieldOk(config: map<string, Json>, field: string) {
    var key := ConfigKey(field);
    key in config ==>
      if field == AckDeadlineField then IntValue(config[key]).Some?
      else if field == RetainAckedField then BoolValue(config[key]).Some?
      else if field == RetentionField then
        config[key].JStr? && !Duration.ParseDuration(config[key].s).OutOfRange?
      else if field == LabelsField then LabelsUpdate(config[key]).Some?
      else StringValue(config[key]).Some?
  }

  predicate SubscriptionConfigOk(config: map<string, Json>) {
    forall f | f in SubscriptionFields :: FieldOk(config, f)
  }

  /** The patch holds, for `field`, the value its configuration key gives. */
  ghost predicate Carries(p: Backend.SubscriptionPatch, config: map<string, Json>, field: string) {
    var key := ConfigKey(field);
    key in config &&
      if field == AckDeadlineField then IntValue(config[key]) == Some(p.ackDeadline)
      else if field == RetainAckedField then BoolValue(config[key]) == Some(p.retainAcked)
      else if field == RetentionField then
        config[key].JStr? && Duration.ParseDuration(config[key].s) == Duration.Seconds(p.retention)
      else if field == LabelsField then LabelsUpdate(config[key]) == Some(p.labels)
      else StringValue(config[key]) == Some(p.pushEndpoint)
  }

  /** p and q agree on the component that `field` names. */
  predicate SameField(p: Backend.SubscriptionPatch, q: Backend.SubscriptionPatch, field: string) {
    if field == AckDeadlineField then p.ackDeadline == q.ackDeadline
    else if field == RetainAckedField then p.retainAcked == q.retainAcked
    else if field == RetentionField then p.retention == q.retention
    else if field == LabelsField then p.labels == q.labels
    else p.pushEndpoint == q.pushEndpoint
  }

  /** One `if "<key>" in subscription_config:` block of `_update_subscription`. */
  function FieldStep(config: map<string, Json>, field: string, u: SubscriptionUpdate)
    : (r: Result<SubscriptionUpdate, string>)
    requires field in SubscriptionFields
    ensures r.Success? <==> FieldOk(config, field)
    ensures r.Success? ==> r.value.mask == u.mask + (if Wanted(config, field) then [field] else [])
    ensures r.Success? && Wanted(config, field) ==> Carries(r.value.patch, config, field)
    ensures r.Success? ==> forall g | g in SubscriptionFields && g != field :: SameField(r.value.patch, u.patch, g)
    ensures r.Failure? ==> SubscriptionUpdateFailure <= r.error
  {
    var key := ConfigKey(field);
    if key !in config then Success(u)
    else
      var v := config[key];
      if field == AckDeadlineField then
        match IntValue(v)
        case None => Failure(SubscriptionUpdateFailure + WrongType(field))
        case Some(x) => Success(SubscriptionUpdate(u.patch.(ackDeadline := x), u.mask + [field]))
      else if field == RetainAckedField then
        match BoolValue(v)
        case None => Failure(SubscriptionUpdateFailure + WrongType(field))
        case Some(x) => Success(SubscriptionUpdate(u.patch.(retainAcked := x), u.mask + [field]))
      else if field == RetentionField then
        match v
        case JStr(text) =>
          (match Duration.ParseDuration(text)
           case NoMatch => Success(u)
           case OutOfRange(n) => Failure(SubscriptionUpdateFailure + OutOfRangeText(n))
           case Seconds(n) => Success(SubscriptionUpdate(u.patch.(retention := n), u.mask + [field])))
        case _ => Failure(SubscriptionUpdateFailure + NotStringOrBytes)
      else if field == LabelsField then
        match LabelsUpdate(v)
        case None => Failure(SubscriptionUpdateFailure + WrongType(field))
        case Some(x) => Success(SubscriptionUpdate(u.patch.(labels := x), u.mask + [field]))
      else
        match StringValue(v)
        case None => Failure(SubscriptionUpdateFailure + WrongType(field))
        case Some(x) => Success(SubscriptionUpdate(u.patch.(pushEndpoint := x), u.mask + [field]))
  }

  /** The field blocks for `fields`, run in order; the first error stops the run. */
  function FieldSteps(config: map<string, Json>, fields: seq<string>, u: SubscriptionUpdate)
    : (r: Result<SubscriptionUpdate, string>)
    requires forall f | f in fields :: f in SubscriptionFields
    requires Backend.NoDuplicates(fields)
    ensures r.Success? <==> forall f | f in fields :: FieldOk(config, f)
    ensures r.Success? ==> r.value.mask == u.mask + Select(fields, f => Wanted(config, f))
    ensures r.Success? ==> forall f | f in fields && Wanted(config, f) :: Carries(r.value.patch, config, f)
    ensures r.Success? ==> forall g | g in SubscriptionFields && g !in fields :: SameField(r.value.patch, u.patch, g)
    ensures r.Failure? ==> SubscriptionUpdateFailure <= r.error
  {
    if |fields| == 0 then Success(u)
    else
      Backend.TailFacts(fields);
      match FieldStep(config, fields[0], u)
      case Failure(e) => Failure(e)
      case Success(u') =>
        var r := FieldSteps(config, fields[1..], u');
        StepsCompose(config, fields, u, u', r);
        r
  }

  lemma StepsCompose(config: map<string, Json>, fields: seq<string>, u: SubscriptionUpdate,
                     u': SubscriptionUpdate, r: Result<SubscriptionUpdate, string>)
    requires |fields| > 0 && fields[0] in SubscriptionFields && fields[0] !in fields[1..]
    requires forall f | f in fields :: f in SubscriptionFields
    requires FieldOk(config, fields[0])
    requires u'.mask == u.mask + (if Wanted(config, fields[0]) then [fields[0]] else [])
    requires Wanted(config, fields[0]) ==> Carries(u'.patch, config, fields[0])
    requires forall g | g in SubscriptionFields && g != fields[0] :: SameField(u'.patch, u.patch, g)
    requires r.Success? <==> forall f | f in fields[1..] :: FieldOk(config, f)
    requires r.Success? ==> r.value.mask == u'.mask + Select(fields[1..], f => Wanted(config, f))
    requires r.Success? ==> forall f | f in fields[1..] && Wanted(config, f) :: Carries(r.value.patch, config, f)
    requires r.Success? ==> forall g | g in SubscriptionFields && g !in fields[1..] :: SameField(r.value.patch, u'.patch, g)
    ensures r.Success? <==> forall f | f in fields :: FieldOk(config, f)
    ensures r.Success? ==> r.value.mask == u.mask + Select(fields, f => Wanted(config, f))
    ensures r.Success? ==> forall f | f in fields && Wanted(config, f) :: Carries(r.value.patch, config, f)
    ensures r.Success? ==> forall g | g in SubscriptionFields && g !in fields :: SameField(r.value.patch, u.patch, g)
  {
    assert forall f | f in fields :: f == fields[0] || f in fields[1..];
    if r.Success? {
      MaskCompose(fields, f => Wanted(config, f), u.mask, u'.mask, r.value.mask);
      CarriesCompose(config, fields, u'.patch, r.value.patch);
      SameCompose(fields, u.patch, u'.patch, r.value.patch);
    }
  }

  lemma MaskCompose(fields: seq<string>, w: string -> bool, m: seq<string>, m': seq<string>, m'': seq<string>)
    requires |fields| > 0
    requires m' == m + (if w(fields[0]) then [fields[0]] else [])
    requires m'' == m' + Select(fields[1..], w)
    ensures m'' == m + Select(fields, w)
  {
    var head := if w(fields[0]) then [fields[0]] else [];
    SelectUnfold(fields, w);
    ConcatAssoc(m, head, Select(fields[1..], w));
  }

  lemma SelectUnfold(fields: seq<string>, w: string -> bool)
    requires |fields| > 0
    ensures Select(fields, w) == (if w(fields[0]) then [fields[0]] else []) + Select(fields[1..], w)
  {
  }

  lemma ConcatAssoc(a: seq<string>, b: seq<string>, c: seq<string>)
    ensures (a + b) + c == a + (b + c)
  {
  }

  lemma CarriesCompose(config: map<string, Json>, fields: seq<string>, p': Backend.SubscriptionPatch, q: Backend.SubscriptionPatch)
    requires |fields| > 0 && fields[0] in SubscriptionFields && fields[0] !in fields[1..]
    requires Wanted(config, fields[0]) ==> Carries(p', config, fields[0])
    requires forall f | f in fields[1..] && Wanted(config, f) :: Carries(q, config, f)
    requires forall g | g in SubscriptionFields && g !in fields[1..] :: SameField(q, p', g)
    ensures forall f | f in fields && Wanted(config, f) :: Carries(q, config, f)
  {
    forall f | f in fields && Wanted(config, f) ensures Carries(q, config, f) {
      if f == fields[0] {
        CarriesTransfers(p', q, config, f);
      } else {
        assert f in fields[1..];
      }
    }
  }

  lemma SameCompose(fields: seq<string>, p: Backend.SubscriptionPatch, p': Backend.SubscriptionPatch, q: Backend.SubscriptionPatch)
    requires |fields| > 0
    requires forall g | g in SubscriptionFields && g != fields[0] :: SameField(p', p, g)
    requires forall g | g in SubscriptionFields && g !in fields[1..] :: SameField(q, p', g)
    ensures forall g | g in SubscriptionFields && g !in fields :: SameField(q, p, g)
  {
    forall g | g in SubscriptionFields && g !in fields ensures SameField(q, p, g) {
      SameFieldTransitive(q, p', p, g);
    }
  }

  lemma SameFieldTransitive(p: Backend.SubscriptionPatch, q: Backend.SubscriptionPatch, o: Backend.SubscriptionPatch, field: string)
    requires SameField(p, q, field) && SameField(q, o, field)
    ensures SameField(p, o, field)
  {
  }

  lemma CarriesTransfers(p: Backend.SubscriptionPatch, q: Backend.SubscriptionPatch, config: map<string, Json>, field: string)
    requires Carries(p, config, field) && SameField(q, p, field)
    ensures Carries(q, config, field)
  {
  }

  /** The subscription update of `_update_subscription`: five key-presence
      checks in a fixed order; a retention that does not parse is left out of
      the mask without any error. */
  function SubscriptionRequest(config: map<string, Json>): (r: Result<SubscriptionUpdate, string>)
    ensures r.Success? <==> SubscriptionConfigOk(config)
    ensures r.Success? ==> r.value.mask == Select(SubscriptionFields, f => Wanted(config, f))
    ensures r.Success? ==> forall f | f in SubscriptionFields && Wanted(config, f) :: Carries(r.value.patch, config, f)
    ensures r.Failure? ==> SubscriptionUpdateFailure <= r.error
  {
    assert Backend.NoDuplicates(SubscriptionFields);
    FieldSteps(config, SubscriptionFields, SubscriptionUpdate(Backend.SubscriptionPatch(0, false, 0, map[], ""), []))
  }

  /** A configuration with none of the five keys yields an empty mask, not
      an error. */
  lemma NoKeysNoMask(config: map<string, Json>)
    requires forall f | f in SubscriptionFields :: ConfigKey(f) !in config
    ensures SubscriptionRequest(config).Success? && SubscriptionRequest(config).value.mask == []
  {
    SelectNone(SubscriptionFields, f => Wanted(config, f));
  }

  // --------------------------------------------------------------- create

  /** `config.get(key, default)` followed by the assignment into the request:
      absent gives the default, None leaves the field unset, and any other
      value goes through the field's checker, which raises (None here) when
      it refuses the value. */
  function DefaultedInt(config: map<string, Json>, key: string, default: int): Option<Option<int>> {
    if key !in config then Some(Some(default))
    else if config[key].JNull? then Some(None)
    else match IntOf(config[key])
      case Some(i) => Some(Some(i))
      case None => None
  }

  function DefaultedBool(config: map<string, Json>, key: string, default: bool): Option<Option<bool>> {
    if key !in config then Some(Some(default))
    else if config[key].JNull? then Some(None)
    else match BoolOf(config[key])
      case Some(b) => Some(Some(b))
      case None => None
  }

  /** The retention `_add_subscription` asks for when none is given. */
  const CreationRetentionDefault: string := "7d"

  /** The retention, if given, is a string, and it does not overflow an int64. */
  predicate CreationRetentionOk(config: map<string, Json>) {
    RetentionField in config ==>
      config[RetentionField].JStr? && !Duration.ParseDuration(config[RetentionField].s).OutOfRange?
  }

  /** `_parse_duration(config.get("message_retention_duration", "7d"))`:
      a non-match leaves the retention unset. */
  function CreationRetention(config: map<string, Json>): (r: Result<Option<nat>, string>)
    ensures r.Success? <==> CreationRetentionOk(config)
    ensures r.Success? ==>
      (r.value.Some? <==>
         RetentionField in config && config[RetentionField].JStr? && Duration.Matches(config[RetentionField].s))
    ensures r.Success? && r.value.Some? ==> r.value.value == Duration.Denotes(config[RetentionField].s)
  {
    var text := if RetentionField in config then config[RetentionField] else JStr(CreationRetentionDefault);
    Duration.SevenDaysDoesNotParse();
      match text
      case JStr(s) =>
        (match Duration.ParseDuration(s)
         case NoMatch => Success(None)
         case OutOfRange(n) => Failure(SubscriptionAddFailure + OutOfRangeText(n))
         case Seconds(n) => Success(Some(n)))
      case _ => Failure(SubscriptionAddFailure + NotStringOrBytes)
  }

  /** The request `_add_subscription` sends. Errors are raised in Python's
      order: the retention while the settings dict is built, the push
      endpoint when PushConfig is built, the other field types when the
      request is converted. */
  function NewSubscriptionRequest(path: string, topicPath: string, config: map<string, Json>)
    : (r: Result<Backend.NewSubscription, string>)
    ensures r.Success? <==>
      && CreationRetentionOk(config)
      && (!Truthy(Get(config, PushEndpointKey)) || Get(config, PushEndpointKey).JStr?)
      && (Get(config, AckDeadlineField).JNull? || IntOf(Get(config, AckDeadlineField)).Some?)
      && (Get(config, RetainAckedField).JNull? || BoolOf(Get(config, RetainAckedField)).Some?)
      && (Get(config, LabelsField).JNull? || IsLabels(Get(config, LabelsField)))
    ensures r.Success? ==> r.value.name == path && r.value.topic == topicPath
    ensures r.Success? && AckDeadlineField in config ==>
      r.value.ackDeadline == (if config[AckDeadlineField].JNull? then None else IntOf(config[AckDeadlineField]))
    ensures r.Success? && RetainAckedField in config ==>
      r.value.retainAcked == (if config[RetainAckedField].JNull? then None else BoolOf(config[RetainAckedField]))
    ensures r.Success? && IsLabels(Get(config, LabelsField)) ==> r.value.labels == AsLabels(config[LabelsField]).value
    ensures r.Success? && Get(config, LabelsField).JNull? ==> r.value.labels == map[]
    ensures r.Success? && AckDeadlineField !in config ==> r.value.ackDeadline == Some(10)
    ensures r.Success? && RetainAckedField !in config ==> r.value.retainAcked == Some(false)
    ensures r.Success? && LabelsField !in config ==> r.value.labels == map[]
    ensures r.Success? && RetentionField !in config ==> r.value.retention == None
    ensures r.Success? ==>
      (r.value.retention.Some? <==>
         RetentionField in config && config[RetentionField].JStr? && Duration.Matches(config[RetentionField].s))
    ensures r.Success? && r.value.retention.Some? ==>
      r.value.retention.value == Duration.Denotes(config[RetentionField].s)
    ensures r.Success? ==> (r.value.pushEndpoint != "" <==> Truthy(Get(config, PushEndpointKey)))
    ensures r.Success? && Truthy(Get(config, PushEndpointKey)) ==>
      Get(config, PushEndpointKey) == JStr(r.value.pushEndpoint)
    ensures r.Failure? ==> SubscriptionAddFailure <= r.error
  {
    var retention :- CreationRetention(config);
    var push := Get(config, PushEndpointKey);
    var endpoint :- if !Truthy(push) then Success("")
      else match push
        case JStr(e) => Success(e)
        case _ => Failure(SubscriptionAddFailure + WrongType(PushEndpointKey));
    var ack := DefaultedInt(config, AckDeadlineField, 10);
    var retain := DefaultedBool(config, RetainAckedField, false);
    var labels := if LabelsField !in config || config[LabelsField].JNull? then Some(map[])
      else AsLabels(config[LabelsField]);
    if ack.None? then Failure(SubscriptionAddFailure + WrongType(AckDeadlineField))
    else if retain.None? then Failure(SubscriptionAddFailure + WrongType(RetainAckedField))
    else if labels.None? then Failure(SubscriptionAddFailure + WrongType(LabelsField))
    else Success(Backend.NewSubscription(path, topicPath, endpoint, ack.value, retain.value, retention, labels.value))
  }
}

=== FILE: service.dfy ===
/** PubSubCreatorService: every public method returns an envelope with a
    status and a message (or a payload) instead of raising, except that
    `create_pubsub_topic` and `delete_pubsub_topic` raise when the client
    failed to initialise, because they build the topic path outside their
    `try`. Each operation is a function from the backend before to the reply
    and the backend after. */
module Service {
  import opened Wrappers
  import opened Text
  import opened JsonValue
  import Duration
  import Backend
  import opened Requests

  /** What the constructor leaves behind: whether both clients were built,
      and the project of the service account. */
  datatype Creator = Creator(initialized: bool, projectId: string)

  /** The envelope: `{"status": "success", ...}`, `{"status": "error",
      "message": ...}`, or an exception that escapes the method. */
  datatype Reply<T> = Ok(value: T) | Err(message: string) | Raised(exception: string)

  datatype Out<T> = Out(reply: Reply<T>, after: Backend.State)

  const NotInitialized: string := "PubSub service not initialized"
  const NoClient: string := "'NoneType' object has no attribute 'topic_path'"
  const SubscriptionNameRequired: string := "Subscription name is required"
  const NoUpdatesNecessary: string := "No updates were necessary for the topic"
  const NoGetMethod: string := "object has no attribute 'get'"

  function TopicPath(project: string, name: string): string {
    "projects/" + project + "/topics/" + name
  }

  function SubscriptionPath(project: string, name: string): string {
    "projects/" + project + "/subscriptions/" + name
  }

  function ProjectPath(project: string): string {
    "projects/" + project
  }

  /** Every RPC issued between b and b' is one of `rpcs`; the earlier log is kept. */
  ghost predicate OnlyCalls(b: Backend.State, b': Backend.State, rpcs: set<Backend.Rpc>) {
    && b.log <= b'.log
    && forall i | |b.log| <= i < |b'.log| :: b'.log[i].rpc in rpcs
  }

  lemma OnlyCallsTrans(b: Backend.State, b': Backend.State, b'': Backend.State, r: set<Backend.Rpc>, r': set<Backend.Rpc>)
    requires OnlyCalls(b, b', r) && OnlyCalls(b', b'', r')
    ensures OnlyCalls(b, b'', r + r')
  {
    forall i | |b.log| <= i < |b''.log| ensures b''.log[i].rpc in r + r' {
      if i < |b'.log| {
        assert b''.log[i] == b'.log[i];
      }
    }
  }

  // ------------------------------------------------------------ views

  const SecondsPerDay: nat := 86400

  /** A `datetime.timedelta` of non-negative length: whole days and the
      seconds left over. proto-plus hands every `google.protobuf.Duration`
      field of a message over as one. */
  datatype TimeDelta = TimeDelta(days: nat, seconds: nat)

  /** The timedelta proto-plus builds for a duration of `total` seconds. */
  function AsTimeDelta(total: nat): (d: TimeDelta)
    ensures d.seconds < SecondsPerDay
    ensures d.days * SecondsPerDay + d.seconds == total
  {
    TimeDelta(total / SecondsPerDay, total % SecondsPerDay)
  }

  /** `<message>.message_retention_duration.seconds`, as the service reads a
      retention: the `seconds` attribute of the timedelta, which leaves out
      the whole days. */
  function ReportedSeconds(total: nat): (r: nat)
    ensures r < SecondsPerDay
    ensures total < SecondsPerDay ==> r == total
    ensures r <= total && (total - r) % SecondsPerDay == 0
  {
    AsTimeDelta(total).seconds
  }

  /** `int(d.total_seconds())`: the whole length of a timedelta in seconds. */
  function TotalSeconds(d: TimeDelta): nat {
    d.days * SecondsPerDay + d.seconds
  }

  /** The retention the service evidently means to report: the total length
      of the timedelta, which gives back the stored seconds for every
      duration, a day or longer included. */
  function IntendedSeconds(total: nat): (r: nat)
    ensures r == total
  {
    TotalSeconds(AsTimeDelta(total))
  }

  /** The dict `_add_subscription` and `_update_subscription` return. */
  datatype SubscriptionView = SubscriptionView(
    name: string,
    topic: string,
    pushEndpoint: Option<string>,
    ackDeadline: int,
    retainAcked: bool,
    retentionSeconds: nat,
    labels: Backend.Labels)

  /** The push endpoint, when the push config is set at all. */
  function PushOf(s: Backend.Subscription): Option<string> {
    if s.pushEndpoint != "" then Some(s.pushEndpoint) else None
  }

  function ViewOf(s: Backend.Subscription): SubscriptionView {
    SubscriptionView(s.name, s.topic, PushOf(s), s.ackDeadline, s.retainAcked, ReportedSeconds(s.retention), s.labels)
  }

  /** One entry of `_list_topic_subscriptions`. */
  datatype SubscriptionSummary = SubscriptionSummary(
    name: string,
    pushEndpoint: Option<string>,
    ackDeadline: int,
    retentionSeconds: nat,
    labels: Backend.Labels)

  function SummaryOf(s: Backend.Subscription): SubscriptionSummary {
    SubscriptionSummary(s.name, PushOf(s), s.ackDeadline, ReportedSeconds(s.retention), s.labels)
  }

  /** One entry of `list_pubsub_topics`. */
  datatype TopicSummary = TopicSummary(
    name: string,
    labels: Backend.Labels,
    subscriptions: seq<SubscriptionSummary>)

  /** `settings if topic.schema_settings else None`: a protobuf message
      reads as false when none of its fields is set. */
  function ShownSchema(s: Option<Backend.SchemaSettings>): (r: Option<Backend.SchemaSettings>)
    ensures r.Some? <==> s.Some? && (s.value.schema != "" || s.value.encoding != 0)
    ensures r.Some? ==> r == s
  {
    match s
    case Some(settings) => if settings.schema != "" || settings.encoding != 0 then s else None
    case None => None
  }

  /** The `topic` dict of `get_pubsub_topic`. */
  datatype TopicDetail = TopicDetail(
    name: string,
    labels: Backend.Labels,
    storageRegions: seq<string>,
    kmsKeyName: string,
    schema: Option<Backend.SchemaSettings>,
    satisfiesPzs: bool,
    retentionSeconds: nat,
    subscriptions: seq<SubscriptionSummary>)

  /** The success dict of `update_pubsub_topic`; `added` and `updated` hold
      the outcome of the subscription steps that ran. */
  datatype UpdateReport = UpdateReport(
    message: string,
    topicPath: string,
    added: Option<Reply<SubscriptionView>>,
    updated: Option<Reply<SubscriptionView>>)

  // ----------------------------------------------------- create, delete

  /** `create_pubsub_topic`: `labels or {}` becomes the topic's labels. */
  function CreateTopic(svc: Creator, b: Backend.State, projectId: string, topicName: string, labels: Json)
    : (o: Out<string>)
    ensures !svc.initialized <==> o.reply.Raised?
    ensures !svc.initialized ==> o.after == b
    ensures o.reply.Ok? <==>
      && svc.initialized
      && (!Truthy(labels) || IsLabels(labels))
      && Backend.CreateTopicRpc !in b.failing
      && TopicPath(projectId, topicName) !in b.topics
    ensures o.reply.Ok? ==>
      && o.reply.value == TopicPath(projectId, topicName)
      && o.reply.value in o.after.topics
      && o.after.topics[o.reply.value].labels == (if Truthy(labels) then AsLabels(labels).value else map[])
      && o.after.topics[o.reply.value].retention.None?
    ensures o.after.failing == b.failing
    ensures svc.initialized && (!Truthy(labels) || IsLabels(labels)) ==>
      o.after.log == b.log + [Backend.Call(Backend.CreateTopicRpc, TopicPath(projectId, topicName), [])]
    ensures Backend.Valid(b) ==> Backend.Valid(o.after)
  {
    if !svc.initialized then Out(Raised(NoClient), b)
    else
      var path := TopicPath(projectId, topicName);
      var given := if Truthy(labels) then AsLabels(labels) else Some(map[]);
      match given
      case None => Out(Err("Failed to create topic: " + WrongType(LabelsField)), b)
      case Some(l) =>
        var a := Backend.CreateTopic(b, path, l);
        match a.result
        case Success(t) => Out(Ok(t.name), a.after)
        case Failure(e) => Out(Err("Failed to create topic: " + Backend.ErrorText(e)), a.after)
  }

  /** `delete_pubsub_topic`: one RPC; subscriptions are left in place. */
  function DeleteTopic(svc: Creator, b: Backend.State, topicName: string): (o: Out<string>)
    ensures !svc.initialized <==> o.reply.Raised?
    ensures !svc.initialized ==> o.after == b
    ensures svc.initialized ==>
      o.after.log == b.log + [Backend.Call(Backend.DeleteTopicRpc, TopicPath(svc.projectId, topicName), [])]
    ensures o.reply.Ok? <==>
      svc.initialized && Backend.DeleteTopicRpc !in b.failing && TopicPath(svc.projectId, topicName) in b.topics
    ensures o.reply.Ok? ==> o.reply.value == TopicPath(svc.projectId, topicName) && o.reply.value !in o.after.topics
    ensures o.after.subscriptions.Keys == b.subscriptions.Keys && o.after.failing == b.failing
    ensures Backend.Valid(b) ==> Backend.Valid(o.after)
  {
    if !svc.initialized then Out(Raised(NoClient), b)
    else
      var path := TopicPath(svc.projectId, topicName);
      var a := Backend.DeleteTopic(b, path);
      match a.result
      case Success(_) => Out(Ok(path), a.after)
      case Failure(e) => Out(Err("Failed to delete topic: " + Backend.ErrorText(e)), a.after)
  }

  // ------------------------------------------------------- get and list

  /** `get_subscription` for each path in turn; the first failure aborts. */
  function FetchSubscriptions(b: Backend.State, paths: seq<string>): (o: Out<seq<SubscriptionSummary>>)
    decreases |paths|
    ensures Backend.SameStore(b, o.after) && OnlyCalls(b, o.after, {Backend.GetSubscriptionRpc})
    ensures o.reply.Ok? || o.reply.Err?
    ensures o.reply.Ok? <==>
      |paths| == 0 || (Backend.GetSubscriptionRpc !in b.failing && forall p | p in paths :: p in b.subscriptions)
    ensures o.reply.Ok? ==>
      |o.reply.value| == |paths| &&
      forall i | 0 <= i < |paths| :: o.reply.value[i] == SummaryOf(b.subscriptions[paths[i]])
  {
    if |paths| == 0 then Out(Ok([]), b)
    else
      var a := Backend.GetSubscription(b, paths[0]);
      match a.result
      case Failure(e) => Out(Err(Backend.ErrorText(e)), a.after)
      case Success(s) =>
        var rest := FetchSubscriptions(a.after, paths[1..]);
        OnlyCallsTrans(b, a.after, rest.after, {Backend.GetSubscriptionRpc}, {Backend.GetSubscriptionRpc});
        assert forall p | p in paths :: p == paths[0] || p in paths[1..];
        match rest.reply
        case Ok(summaries) =>
          assert forall i | 1 <= i < |paths| :: paths[1..][i - 1] == paths[i];
          Out(Ok([SummaryOf(s)] + summaries), rest.after)
        case _ => rest
  }

  /** `_list_topic_subscriptions`: any failure is logged and yields an empty list. */
  function ListTopicSubscriptions(b: Backend.State, topicPath: string): (o: Out<seq<SubscriptionSummary>>)
    ensures o.reply.Ok?
    ensures Backend.SameStore(b, o.after)
    ensures OnlyCalls(b, o.after, {Backend.ListTopicSubscriptionsRpc, Backend.GetSubscriptionRpc})
    ensures Backend.ListTopicSubscriptionsRpc in b.failing ==> o.reply.value == []
    ensures Backend.Valid(b) && Backend.ListTopicSubscriptionsRpc !in b.failing && Backend.GetSubscriptionRpc !in b.failing ==>
      var attached := Backend.SubscriptionsOf(b.subscriptions, b.subscriptionOrder, topicPath);
      |o.reply.value| == |attached| &&
      forall i | 0 <= i < |attached| :: o.reply.value[i] == SummaryOf(b.subscriptions[attached[i]])
  {
    var a := Backend.ListTopicSubscriptions(b, topicPath);
    match a.result
    case Failure(_) => Out(Ok([]), a.after)
    case Success(paths) =>
      var f := FetchSubscriptions(a.after, paths);
      OnlyCallsTrans(b, a.after, f.after, {Backend.ListTopicSubscriptionsRpc}, {Backend.GetSubscriptionRpc});
      match f.reply
      case Ok(summaries) => Out(Ok(summaries), f.after)
      case _ => Out(Ok([]), f.after)
  }

  /** What `_list_topic_subscriptions` answers depends on the stored
      resources only, not on the calls made before. */
  lemma ListTopicSubscriptionsIgnoresLog(b: Backend.State, b': Backend.State, topicPath: string)
    requires Backend.SameStore(b, b')
    ensures ListTopicSubscriptions(b, topicPath).reply == ListTopicSubscriptions(b', topicPath).reply
  {
    var a, a' := Backend.ListTopicSubscriptions(b, topicPath), Backend.ListTopicSubscriptions(b', topicPath);
    assert a.result == a'.result;
    if a.result.Success? {
      var f, f' := FetchSubscriptions(a.after, a.result.value), FetchSubscriptions(a'.after, a.result.value);
      assert f.reply.Ok? <==> f'.reply.Ok?;
      if f.reply.Ok? {
        assert f.reply.value == f'.reply.value;
      }
    }
  }

  /** The topics of `list_pubsub_topics`, each with its subscriptions. */
  function SummarizeTopics(b: Backend.State, topics: seq<Backend.Topic>): (o: Out<seq<TopicSummary>>)
    decreases |topics|
    ensures o.reply.Ok?
    ensures Backend.SameStore(b, o.after)
    ensures OnlyCalls(b, o.after, {Backend.ListTopicSubscriptionsRpc, Backend.GetSubscriptionRpc})
    ensures |o.reply.value| == |topics|
    ensures forall i | 0 <= i < |topics| ::
      && o.reply.value[i].name == topics[i].name
      && o.reply.value[i].labels == topics[i].labels
      && o.reply.value[i].subscriptions == ListTopicSubscriptions(b, topics[i].name).reply.value
  {
    if |topics| == 0 then Out(Ok([]), b)
    else
      var subs := ListTopicSubscriptions(b, topics[0].name);
      var rest := SummarizeTopics(subs.after, topics[1..]);
      OnlyCallsTrans(b, subs.after, rest.after,
        {Backend.ListTopicSubscriptionsRpc, Backend.GetSubscriptionRpc},
        {Backend.ListTopicSubscriptionsRpc, Backend.GetSubscriptionRpc});
      forall i | 1 <= i < |topics|
        ensures rest.reply.value[i - 1].subscriptions == ListTopicSubscriptions(b, topics[i].name).reply.value
      {
        assert topics[1..][i - 1] == topics[i];
        ListTopicSubscriptionsIgnoresLog(b, subs.after, topics[i].name);
      }
      Out(Ok([TopicSummary(topics[0].name, topics[0].labels, subs.reply.value)] + rest.reply.value), rest.after)
  }

  /** `list_pubsub_topics`: the project's topics, in the backend's order. */
  function ListTopics(svc: Creator, b: Backend.State): (o: Out<seq<TopicSummary>>)
    ensures !o.reply.Raised?
    ensures Backend.SameStore(b, o.after)
    ensures !svc.initialized ==> o == Out(Err(NotInitialized), b)
    ensures o.reply.Ok? <==> svc.initialized && Backend.ListTopicsRpc !in b.failing
    ensures o.reply.Ok? ==>
      var listed := Backend.TopicsUnder(b.topics, b.topicOrder, ProjectPath(svc.projectId) + "/topics/");
      && |o.reply.value| == |listed|
      && forall i | 0 <= i < |listed| ::
           && o.reply.value[i].name == listed[i].name
           && o.reply.value[i].labels == listed[i].labels
           && o.reply.value[i].subscriptions == ListTopicSubscriptions(b, listed[i].name).reply.value
  {
    if !svc.initialized then Out(Err(NotInitialized), b)
    else
      var a := Backend.ListTopics(b, ProjectPath(svc.projectId));
      match a.result
      case Failure(e) => Out(Err("Failed to list topics: " + Backend.ErrorText(e)), a.after)
      case Success(topics) =>
        var s := SummarizeTopics(a.after, topics);
        forall i | 0 <= i < |topics|
          ensures s.reply.value[i].subscriptions == ListTopicSubscriptions(b, topics[i].name).reply.value
        {
          ListTopicSubscriptionsIgnoresLog(b, a.after, topics[i].name);
        }
        Out(Ok(s.reply.value), s.after)
  }

  /** `get_pubsub_topic`: the topic with all its fields and subscriptions. */
  function GetTopic(svc: Creator, b: Backend.State, topicName: string): (o: Out<TopicDetail>)
    ensures !o.reply.Raised?
    ensures Backend.SameStore(b, o.after)
    ensures !svc.initialized ==> o == Out(Err(NotInitialized), b)
    ensures o.reply.Ok? <==>
      svc.initialized && Backend.GetTopicRpc !in b.failing && TopicPath(svc.projectId, topicName) in b.topics
    ensures o.reply.Ok? ==>
      var t := b.topics[TopicPath(svc.projectId, topicName)];
      && o.reply.value.name == t.name
      && o.reply.value.labels == t.labels
      && o.reply.value.retentionSeconds == ReportedSeconds(t.retention.GetOr(0))
      && o.reply.value.storageRegions == t.storageRegions
      && o.reply.value.kmsKeyName == t.kmsKeyName
      && o.reply.value.schema == ShownSchema(t.schema)
      && o.reply.value.satisfiesPzs == t.satisfiesPzs
      && o.reply.value.subscriptions == ListTopicSubscriptions(b, t.name).reply.value
    ensures svc.initialized && Backend.GetTopicRpc !in b.failing && TopicPath(svc.projectId, topicName) !in b.topics ==>
      o.reply == Err("Failed to get topic: " + Backend.ErrorText(Backend.NotFound(TopicPath(svc.projectId, topicName))))
  {
    if !svc.initialized then Out(Err(NotInitialized), b)
    else
      var path := TopicPath(svc.projectId, topicName);
      var a := Backend.GetTopic(b, path);
      match a.result
      case Failure(e) => Out(Err("Failed to get topic: " + Backend.ErrorText(e)), a.after)
      case Success(t) =>
        var subs := ListTopicSubscriptions(a.after, t.name);
        ListTopicSubscriptionsIgnoresLog(b, a.after, t.name);
        Out(Ok(TopicDetail(t.name, t.labels, t.storageRegions, t.kmsKeyName, ShownSchema(t.schema), t.satisfiesPzs,
                           ReportedSeconds(t.retention.GetOr(0)), subs.reply.value)), subs.after)
  }

  // ------------------------------------------------------ subscriptions

  /** The dict `_add_subscription` returns reflects its configuration: the
      given values as their setters convert them, the creation defaults for
      absent keys, and the backend's defaults where the request leaves a
      field unset or the ack deadline at 0. */
  ghost predicate ReportsCreation(v: SubscriptionView, path: string, topicPath: string, fields: map<string, Json>) {
    && v.name == path
    && v.topic == topicPath
    && (AckDeadlineField !in fields ==> v.ackDeadline == 10)
    && (RetainAckedField !in fields ==> !v.retainAcked)
    && (LabelsField !in fields ==> v.labels == map[])
    && (RetentionField !in fields ==> v.retentionSeconds == ReportedSeconds(Backend.DefaultRetention))
    && (v.pushEndpoint.Some? <==> Truthy(Get(fields, PushEndpointKey)))
    && (v.pushEndpoint.Some? ==> Get(fields, PushEndpointKey) == JStr(v.pushEndpoint.value))
    && (IntOf(Get(fields, AckDeadlineField)).Some? ==>
          v.ackDeadline == Backend.AppliedAckDeadline(IntOf(fields[AckDeadlineField]).value))
    && (Get(fields, AckDeadlineField).JNull? ==> v.ackDeadline == Backend.DefaultAckDeadline)
    && (BoolOf(Get(fields, RetainAckedField)).Some? ==> v.retainAcked == BoolOf(fields[RetainAckedField]).value)
    && (Get(fields, RetainAckedField).JNull? ==> !v.retainAcked)
    && (IsLabels(Get(fields, LabelsField)) ==> v.labels == AsLabels(fields[LabelsField]).value)
    && (Get(fields, LabelsField).JNull? ==> v.labels == map[])
    && (Get(fields, RetentionField).JStr? && Duration.Matches(fields[RetentionField].s) ==>
          v.retentionSeconds == ReportedSeconds(Duration.Denotes(fields[RetentionField].s)))
  }

  /** The subscription created from an accepted request reports its configuration. */
  lemma CreatedViewReports(path: string, topicPath: string, fields: map<string, Json>, req: Backend.NewSubscription)
    requires NewSubscriptionRequest(path, topicPath, fields) == Success(req)
    ensures ReportsCreation(ViewOf(Backend.Created(req)), path, topicPath, fields)
  {
  }

  /** The `create_subscription` call of `_add_subscription` and the dict it
      returns, or the error message. */
  function SendCreate(b: Backend.State, req: Backend.NewSubscription): (o: Out<SubscriptionView>)
    ensures o.reply.Ok? || o.reply.Err?
    ensures o.after.log == b.log + [Backend.Call(Backend.CreateSubscriptionRpc, req.name, [])]
    ensures o.reply.Ok? <==>
      Backend.CreateSubscriptionRpc !in b.failing && req.name !in b.subscriptions && req.topic in b.topics
    ensures o.reply.Ok? ==>
      && o.after.subscriptions == b.subscriptions[req.name := Backend.Created(req)]
      && o.after.subscriptionOrder == b.subscriptionOrder + [req.name]
      && o.reply.value == ViewOf(Backend.Created(req))
    ensures !o.reply.Ok? ==> Backend.SameStore(b, o.after)
    ensures o.after.topics == b.topics && o.after.failing == b.failing
    ensures Backend.Valid(b) ==> Backend.Valid(o.after)
  {
    var a := Backend.CreateSubscription(b, req);
    match a.result
    case Success(s) => Out(Ok(ViewOf(s)), a.after)
    case Failure(e) => Out(Err(SubscriptionAddFailure + Backend.ErrorText(e)), a.after)
  }

  /** `_add_subscription`: the name check, then one create RPC with the
      creation defaults applied. */
  function AddSubscription(svc: Creator, b: Backend.State, topicPath: string, config: Json)
    : (o: Out<SubscriptionView>)
    ensures o.reply.Ok? || o.reply.Err?
    ensures !config.JObj? ==> o.after == b
    ensures config.JObj? && !Truthy(Get(config.fields, "name")) ==> o == Out(Err(SubscriptionNameRequired), b)
    ensures config.JObj? && Truthy(Get(config.fields, "name")) ==>
      var path := SubscriptionPath(svc.projectId, PyStr(Get(config.fields, "name")));
      var req := NewSubscriptionRequest(path, topicPath, config.fields);
      && (req.Failure? ==> o == Out(Err(req.error), b))
      && (req.Success? ==> o.after.log == b.log + [Backend.Call(Backend.CreateSubscriptionRpc, path, [])])
      && (req.Success? ==> (o.reply.Ok? <==>
            Backend.CreateSubscriptionRpc !in b.failing && path !in b.subscriptions && topicPath in b.topics))
      && (req.Success? && o.reply.Ok? ==>
            && o.after.subscriptions == b.subscriptions[path := Backend.Created(req.value)]
            && o.after.subscriptionOrder == b.subscriptionOrder + [path]
            && o.reply.value == ViewOf(Backend.Created(req.value)))
    ensures !o.reply.Ok? ==> Backend.SameStore(b, o.after)
    ensures OnlyCalls(b, o.after, {Backend.CreateSubscriptionRpc}) && |o.after.log| <= |b.log| + 1
    ensures o.after.topics == b.topics && o.after.failing == b.failing
    ensures o.reply.Ok? ==> config.JObj?
    ensures o.reply.Ok? && config.JObj? ==>
      ReportsCreation(o.reply.value, SubscriptionPath(svc.projectId, PyStr(Get(config.fields, "name"))), topicPath, config.fields)
    ensures Backend.Valid(b) ==> Backend.Valid(o.after)
  {
    match config
    case JObj(fields) =>
      var name := Get(fields, "name");
      if !Truthy(name) then Out(Err(SubscriptionNameRequired), b)
      else
        var path := SubscriptionPath(svc.projectId, PyStr(name));
        (match NewSubscriptionRequest(path, topicPath, fields)
         case Failure(msg) => Out(Err(msg), b)
         case Success(req) =>
           CreatedViewReports(path, topicPath, fields, req);
           SendCreate(b, req))
    case _ => Out(Err(SubscriptionAddFailure + NoGetMethod), b)
  }

  /** `_update_subscription`: the name check, then one update RPC whose mask
      follows key presence. The RPC is sent even when the mask is empty. */
  function UpdateSubscription(svc: Creator, b: Backend.State, topicPath: string, config: Json)
    : (o: Out<SubscriptionView>)
    ensures o.reply.Ok? || o.reply.Err?
    ensures !config.JObj? ==> o.after == b
    ensures config.JObj? && !Truthy(Get(config.fields, "name")) ==> o == Out(Err(SubscriptionNameRequired), b)
    ensures config.JObj? && Truthy(Get(config.fields, "name")) && !SubscriptionConfigOk(config.fields) ==>
      o.after == b && o.reply.Err?
    ensures config.JObj? && Truthy(Get(config.fields, "name")) && SubscriptionConfigOk(config.fields) ==>
      o.after.log == b.log + [Backend.Call(Backend.UpdateSubscriptionRpc,
                                           SubscriptionPath(svc.projectId, PyStr(Get(config.fields, "name"))),
                                           SubscriptionRequest(config.fields).value.mask)]
    ensures config.JObj? && Truthy(Get(config.fields, "name")) && SubscriptionConfigOk(config.fields) ==>
      var path := SubscriptionPath(svc.projectId, PyStr(Get(config.fields, "name")));
      var u := SubscriptionRequest(config.fields).value;
      && (o.reply.Ok? <==> Backend.UpdateSubscriptionRpc !in b.failing && |u.mask| > 0 && path in b.subscriptions)
      && (o.reply.Ok? ==>
            && o.after.subscriptions == b.subscriptions[path := Backend.PatchSubscription(b.subscriptions[path], u.patch, u.mask)]
            && o.reply.value == ViewOf(Backend.PatchSubscription(b.subscriptions[path], u.patch, u.mask)))
    ensures !o.reply.Ok? ==> Backend.SameStore(b, o.after)
    ensures OnlyCalls(b, o.after, {Backend.UpdateSubscriptionRpc}) && |o.after.log| <= |b.log| + 1
    ensures o.after.topics == b.topics && o.after.failing == b.failing
    ensures Backend.Valid(b) ==> Backend.Valid(o.after)
  {
    match config
    case JObj(fields) =>
      var name := Get(fields, "name");
      if !Truthy(name) then Out(Err(SubscriptionNameRequired), b)
      else
        var path := SubscriptionPath(svc.projectId, PyStr(name));
        (match SubscriptionRequest(fields)
         case Failure(msg) => Out(Err(msg), b)
         case Success(u) =>
           var a := Backend.UpdateSubscription(b, path, u.patch, u.mask);
           match a.result
           case Success(s) => Out(Ok(ViewOf(s)), a.after)
           case Failure(e) => Out(Err(SubscriptionUpdateFailure + Backend.ErrorText(e)), a.after))
    case _ => Out(Err(SubscriptionUpdateFailure + NoGetMethod), b)
  }

  // ------------------------------------------------------------- update

  /** The topic step of `update_pubsub_topic`: one update RPC when the mask
      is non-empty, none otherwise. */
  function UpdateTopicStep(b: Backend.State, path: string, u: TopicUpdate): (o: Out<UpdateReport>)
    ensures o.reply.Ok? || o.reply.Err?
    ensures |u.mask| == 0 ==> o == Out(Ok(UpdateReport(NoUpdatesNecessary, path, None, None)), b)
    ensures |u.mask| > 0 ==> o.after.log == b.log + [Backend.Call(Backend.UpdateTopicRpc, path, u.mask)]
    ensures |u.mask| > 0 ==>
      (o.reply.Ok? <==> Backend.UpdateTopicRpc !in b.failing && path in b.topics)
    ensures o.reply.Ok? ==> o.reply.value.added.None? && o.reply.value.updated.None?
    ensures o.after.failing == b.failing && o.after.subscriptions == b.subscriptions
    ensures o.after.topics ==
      if o.reply.Ok? && |u.mask| > 0 then b.topics[path := Backend.PatchTopic(b.topics[path], u.patch, u.mask)]
      else b.topics
    ensures Backend.Valid(b) ==> Backend.Valid(o.after)
  {
    if |u.mask| == 0 then Out(Ok(UpdateReport(NoUpdatesNecessary, path, None, None)), b)
    else
      var a := Backend.UpdateTopic(b, path, u.patch, u.mask);
      match a.result
      case Success(t) => Out(Ok(UpdateReport("Topic updated: " + t.name, t.name, None, None)), a.after)
      case Failure(e) => Out(Err(TopicFailure + Backend.ErrorText(e)), a.after)
  }

  /** `if <config>:` — run the subscription step only for a truthy config. */
  function MaybeAdd(svc: Creator, b: Backend.State, path: string, config: Json)
    : (r: (Option<Reply<SubscriptionView>>, Backend.State))
    ensures r.0.Some? <==> Truthy(config)
    ensures !Truthy(config) ==> r.1 == b
    ensures r.0.Some? ==> r.0.value.Ok? || r.0.value.Err?
    ensures OnlyCalls(b, r.1, {Backend.CreateSubscriptionRpc})
    ensures r.1.topics == b.topics && r.1.failing == b.failing
    ensures Backend.Valid(b) ==> Backend.Valid(r.1)
  {
    if Truthy(config) then
      var o := AddSubscription(svc, b, path, config);
      (Some(o.reply), o.after)
    else (None, b)
  }

  function MaybeUpdate(svc: Creator, b: Backend.State, path: string, config: Json)
    : (r: (Option<Reply<SubscriptionView>>, Backend.State))
    ensures r.0.Some? <==> Truthy(config)
    ensures !Truthy(config) ==> r.1 == b
    ensures r.0.Some? ==> r.0.value.Ok? || r.0.value.Err?
    ensures OnlyCalls(b, r.1, {Backend.UpdateSubscriptionRpc})
    ensures r.1.topics == b.topics && r.1.failing == b.failing
    ensures Backend.Valid(b) ==> Backend.Valid(r.1)
  {
    if Truthy(config) then
      var o := UpdateSubscription(svc, b, path, config);
      (Some(o.reply), o.after)
    else (None, b)
  }

  /** `update_pubsub_topic`. Arguments are JSON values; `JNull` is Python's None. */
  function UpdateTopic(svc: Creator, b: Backend.State, topicName: string, labels: Json, retention: Json,
                       addSubscription: Json, updateSubscription: Json): (o: Out<UpdateReport>)
    ensures o.reply.Ok? || o.reply.Err?
    ensures !svc.initialized ==> o == Out(Err(NotInitialized), b)
    ensures svc.initialized && TopicRequest(labels, retention).Failure? ==>
      o == Out(Err(TopicRequest(labels, retention).error), b)
    ensures o.reply.Ok? <==>
      && svc.initialized
      && TopicRequest(labels, retention).Success?
      && (|TopicRequest(labels, retention).value.mask| == 0 ||
          (Backend.UpdateTopicRpc !in b.failing && TopicPath(svc.projectId, topicName) in b.topics))
    ensures o.reply.Ok? ==>
      && (o.reply.value.added.Some? <==> Truthy(addSubscription))
      && (o.reply.value.updated.Some? <==> Truthy(updateSubscription))
    ensures o.after.failing == b.failing
    ensures o.after.topics ==
      var path := TopicPath(svc.projectId, topicName);
      var u := TopicRequest(labels, retention);
      if o.reply.Ok? && |u.value.mask| > 0 then b.topics[path := Backend.PatchTopic(b.topics[path], u.value.patch, u.value.mask)]
      else b.topics
    ensures !Truthy(addSubscription) && !Truthy(updateSubscription) ==> o.after.subscriptions == b.subscriptions
    ensures o.reply.Err? && svc.initialized && TopicRequest(labels, retention).Success? ==>
      o.after.log == b.log + [Backend.Call(Backend.UpdateTopicRpc, TopicPath(svc.projectId, topicName),
                                           TopicRequest(labels, retention).value.mask)]
    ensures Backend.Valid(b) ==> Backend.Valid(o.after)
    ensures OnlyCalls(b, o.after, {Backend.UpdateTopicRpc, Backend.CreateSubscriptionRpc, Backend.UpdateSubscriptionRpc})
    ensures svc.initialized && TopicRequest(labels, retention).Success? && |TopicRequest(labels, retention).value.mask| == 0 ==>
      && o.reply.Ok?
      && o.reply.value.message == NoUpdatesNecessary
      && o.reply.value.topicPath == TopicPath(svc.projectId, topicName)
      && OnlyCalls(b, o.after, {Backend.CreateSubscriptionRpc, Backend.UpdateSubscriptionRpc})
    ensures Backend.Valid(b) && o.reply.Ok? ==> o.reply.value.topicPath == TopicPath(svc.projectId, topicName)
    ensures o.reply.Ok? ==>
      var path := TopicPath(svc.projectId, topicName);
      var b1 := UpdateTopicStep(b, path, TopicRequest(labels, retention).value).after;
      var add := AddSubscription(svc, b1, path, addSubscription);
      var b2 := if Truthy(addSubscription) then add.after else b1;
      var upd := UpdateSubscription(svc, b2, path, updateSubscription);
      && (Truthy(addSubscription) ==> o.reply.value.added == Some(add.reply))
      && (Truthy(updateSubscription) ==> o.reply.value.updated == Some(upd.reply))
      && o.after == (if Truthy(updateSubscription) then upd.after else b2)
  {
    if !svc.initialized then Out(Err(NotInitialized), b)
    else
      var path := TopicPath(svc.projectId, topicName);
      match TopicRequest(labels, retention)
      case Failure(msg) => Out(Err(msg), b)
      case Success(u) =>
        var step := UpdateTopicStep(b, path, u);
        assert OnlyCalls(b, step.after, {Backend.UpdateTopicRpc});
        match step.reply
        case Ok(report) =>
          var (added, b1) := MaybeAdd(svc, step.after, path, addSubscription);
          var (updated, b2) := MaybeUpdate(svc, b1, path, updateSubscription);
          OnlyCallsTrans(step.after, b1, b2, {Backend.CreateSubscriptionRpc}, {Backend.UpdateSubscriptionRpc});
          OnlyCallsTrans(b, step.after, b2, {Backend.UpdateTopicRpc},
                         {Backend.CreateSubscriptionRpc, Backend.UpdateSubscriptionRpc});
          Out(Ok(report.(added := added, updated := updated)), b2)
        case _ => step
  }
}

=== FILE: text.dfy ===
/** Character and string helpers shared by the codec, the service and the
    controller: ASCII decimal numerals, Python's `str(int)`, ASCII lower-casing,
    substring search (`t in s`) and `s.split("/")[-1]`. */
module Text {

  predicate IsDigit(c: char) {
    '0' <= c <= '9'
  }

  predicate AllDigits(s: string) {
    forall i | 0 <= i < |s| :: IsDigit(s[i])
  }

  function DigitValue(c: char): (d: nat)
    requires IsDigit(c)
    ensures d < 10
  {
    c as int - '0' as int
  }

  function DigitChar(d: nat): (c: char)
    requires d < 10
    ensures IsDigit(c) && DigitValue(c) == d
  {
    ('0' as int + d) as char
  }

  function Pow10(k: nat): (r: nat)
    ensures r >= 1
  {
    if k == 0 then 1 else 10 * Pow10(k - 1)
  }

  /** The value of a numeral read most significant digit first, as Python's
      `int()` reads an ASCII digit string; leading zeros add nothing. */
  function DigitsValue(s: string): nat
    requires AllDigits(s)
  {
    if |s| == 0 then 0 else DigitsValue(s[..|s| - 1]) * 10 + DigitValue(s[|s| - 1])
  }

  /** Reading a numeral from the front: the first digit weighs 10^(rest length). */
  lemma {:induction false} DigitsValueCons(c: char, t: string)
    requires IsDigit(c) && AllDigits(t)
    ensures AllDigits([c] + t)
    ensures DigitsValue([c] + t) == DigitValue(c) * Pow10(|t|) + DigitsValue(t)
  {
    var s := [c] + t;
    assert AllDigits(s) by {
      forall i | 0 <= i < |s| ensures IsDigit(s[i]) {
        if i > 0 { assert s[i] == t[i - 1]; }
      }
    }
    if |t| == 0 {
      assert s[..0] == [];
    } else {
      var t', last := t[..|t| - 1], t[|t| - 1];
      assert s[..|s| - 1] == [c] + t';
      assert s[|s| - 1] == last;
      DigitsValueCons(c, t');
      assert DigitsValue(t) == DigitsValue(t') * 10 + DigitValue(last);
      Regroup(DigitValue(c), Pow10(|t'|), DigitsValue(t'), DigitValue(last));
    }
  }

  /** Appending a digit to a numeral that starts with digit d. */
  lemma Regroup(d: nat, p: nat, v: nat, last: nat)
    ensures (d * p + v) * 10 + last == d * (10 * p) + (v * 10 + last)
  {
  }

  /** Python's `str(n)` for a non-negative integer: the shortest decimal numeral. */
  function NatToDecimal(n: nat): (r: string)
    ensures |r| > 0 && AllDigits(r)
    ensures r[0] == '0' ==> n == 0
  {
    if n < 10 then [DigitChar(n)] else NatToDecimal(n / 10) + [DigitChar(n % 10)]
  }

  /** Reading back what NatToDecimal wrote gives the number again. */
  lemma {:induction false} DecimalRoundTrip(n: nat)
    ensures DigitsValue(NatToDecimal(n)) == n
  {
    if n >= 10 {
      var s := NatToDecimal(n);
      assert s[..|s| - 1] == NatToDecimal(n / 10);
      DecimalRoundTrip(n / 10);
    }
  }

  /** Python's `str(i)` for any integer. */
  function IntToDecimal(i: int): (r: string)
    ensures |r| > 0
    ensures i >= 0 ==> r == NatToDecimal(i)
    ensures i < 0 ==> r[0] == '-' && r[1..] == NatToDecimal(-i)
  {
    if i < 0 then "-" + NatToDecimal(-i) else NatToDecimal(i)
  }

  function LowerChar(c: char): char {
    if 'A' <= c <= 'Z' then (c as int + 32) as char else c
  }

  /** `s.lower()`, restricted to ASCII letters. */
  function Lower(s: string): (r: string)
    ensures |r| == |s|
    ensures forall i | 0 <= i < |s| :: r[i] == LowerChar(s[i])
  {
    seq(|s|, i requires 0 <= i < |s| => LowerChar(s[i]))
  }

  lemma LowerConcat(a: string, b: string)
    ensures Lower(a + b) == Lower(a) + Lower(b)
  {
    assert forall i | 0 <= i < |a + b| :: Lower(a + b)[i] == (Lower(a) + Lower(b))[i];
  }

  /** t occurs in s starting at index i. */
  predicate OccursAt(s: string, t: string, i: nat) {
    i + |t| <= |s| && s[i..i + |t|] == t
  }

  /** Python's `t in s` on strings: t occurs somewhere in s. */
  predicate Contains(s: string, t: string) {
    exists i: nat | i <= |s| :: OccursAt(s, t, i)
  }

  /** Whatever surrounds it, a string contains itself. */
  lemma ContainsInfix(a: string, t: string, c: string)
    ensures Contains(a + t + c, t)
  {
    assert (a + t + c)[|a|..|a| + |t|] == t;
    assert OccursAt(a + t + c, t, |a|);
  }

  /** A text without upper-case letters survives lower-casing, so it is still
      found inside the lower-cased text around it. */
  lemma LowerKeepsInfix(a: string, t: string, c: string)
    requires forall i | 0 <= i < |t| :: !('A' <= t[i] <= 'Z')
    ensures Contains(Lower(a + t + c), t)
  {
    LowerConcat(a + t, c);
    LowerConcat(a, t);
    assert Lower(t) == t;
    ContainsInfix(Lower(a), t, Lower(c));
  }

  /** A string is never found in a text that lacks one of its characters. */
  lemma ContainsNeedsChar(s: string, t: string, c: char)
    requires c in t && c !in s
    ensures !Contains(s, t)
  {
    var k :| 0 <= k < |t| && t[k] == c;
    forall i: nat | i <= |s| ensures !OccursAt(s, t, i) {
      if i + |t| <= |s| {
        assert s[i..i + |t|][k] == s[i + k];
      }
    }
  }

  /** Lower-casing cannot create a lower-case letter whose two cases are absent. */
  lemma LowerMissesLetter(s: string, c: char)
    requires 'a' <= c <= 'z' && c !in s && (c as int - 32) as char !in s
    ensures c !in Lower(s)
  {
    forall i | 0 <= i < |s| ensures Lower(s)[i] != c {
      assert s[i] != c && s[i] != (c as int - 32) as char;
    }
  }

  /** `s.split("/")[-1]`: the text after the last slash, or all of s when it has none. */
  function LastSegment(s: string): (r: string)
    ensures '/' !in r
    ensures |r| <= |s| && r == s[|s| - |r|..]
    ensures r == s || s[|s| - |r| - 1] == '/'
  {
    if |s| == 0 then ""
    else if s[|s| - 1] == '/' then ""
    else LastSegment(s[..|s| - 1]) + [s[|s| - 1]]
  }

  /** Text without a slash, after text that ends in one, is the last
      segment: the short name of `prefix/name` is `name`. */
  lemma {:induction false} LastSegmentOfSuffix(p: string, name: string)
    requires |p| > 0 && p[|p| - 1] == '/' && '/' !in name
    ensures LastSegment(p + name) == name
  {
    var s := p + name;
    if |name| == 0 {
      assert s == p;
    } else {
      var name' := name[..|name| - 1];
      assert s[|s| - 1] == name[|name| - 1];
      assert s[..|s| - 1] == p + name';
      LastSegmentOfSuffix(p, name');
      assert name == name' + [name[|name| - 1]];
    }
  }
}

=== FILE: wrappers.dfy ===
/** Option and Result, the two failure-carrying datatypes the model uses in
    place of Python's `None` and of exceptions that are caught and turned into
    an error envelope. Result supports `:-` propagation. */
module Wrappers {

  datatype Option<+T> = None | Some(value: T) {

    /** The wrapped value, or `default` when there is none (Python's `d.get(k, default)`). */
    function GetOr(default: T): T {
      match this
      case Some(v) => v
      case None => default
    }
  }

  datatype Result<+T, +E> = Success(value: T) | Failure(error: E) {

    predicate IsFailure() {
      Failure?
    }

    function PropagateFailure<U>(): Result<U, E>
      requires Failure?
    {
      Failure(error)
    }

    function Extract(): T
      requires Success?
    {
      value
    }
  }
}
